=== FILE: README.md ===
# taskchain: memoised tasks over a shared file store

taskchain caches the result of a *task* (a named computation bound to a run `Config`).
Reading a task's `value` returns the in-process cache when there is one. Otherwise it asks
the task's *Data* object whether a complete result is already persisted, and loads it
without running. Only when neither holds does it call `run`, and then it saves the result.
A new task instance stands for a new process: it shares the file store with earlier
instances but not their cache.

A result lives at `<base>/<group>/<task name>/<config name>` plus the variant's suffix;
tasks that declare no group use `<base>/<task name>/<config name>`. The Data variants
form a closed set:

- the whole-file variant keeps the value in `<name>.json`;
- the generated variant drains a finite producer into `<name>.jsonl` and loads it back as a list;
- the in-memory variant never writes a file;
- the directory variant works in `<name>_tmp` and commits by renaming it to `<name>` when it is saved;
- the continuing variant keeps `<name>_tmp` across processes until `finished()` commits it the same way.

A sidecar record `<name>.run_info.yaml` is written and read next to the result.

The model has three layers:

- **Value functions.** `FileSystem`, `DataSpec` and `TaskSpec` describe each operation as a
  function over value state: an `FsState` of directories and files, a `DataState`, and an
  `Invocation`, which is what one process reading `value` leaves behind.
- **Classes.** `Store.FileStore`, `DataObjects.Data` and `Tasks.Task` hold that state in
  fields. They update it in place, and every method is proved equal to its function.
  `Task.RunCheckpoints` is the continuing task's `for`/`break` loop. It carries a loop
  invariant that ties it to the function for the first missing marker.
- **Properties and scenarios.** `TaskProperties` proves the properties the tests rely on.
  `Scenarios` replays the tests on `Task` instances that share one `FileStore`.

The task tests are stated over the fixture tasks themselves. A task declaration (`TaskDef`)
fixes its group, its name, its Data variant and the shape of its `run`.

Configs with different names are meant never to share a storage location. That holds for
the result files: `TaskProperties.ResultFilesApart` and `TaskProperties.ConfigNamesIsolate`
prove it. It does not hold for the directory variants, because the working directory of
config `<n>` is `<n>_tmp` (test line 151), which is also the final directory of config
`<n>_tmp`. `TaskProperties.TmpNamedConfigAdoptsUnfinishedWork` proves the consequence: after
one unfinished process of a continuing task under `<n>`, a process under `<n>_tmp` runs 0
times and reports the other config's unfinished work as its own committed result.

## Model

| member | source | states |
|---|---|---|
| Paths.NatToString | tests/test_data.py:241 | the marker name `str(i)` is a non-empty decimal numeral, one digit exactly for `i < 10` |
| Paths.NatToStringInjective | tests/test_data.py:240-243 | distinct checkpoint indices give distinct marker names |
| FileSystem.RenameMoves | tests/test_data.py:158-162 | a rename carries every entry below the working directory, with its contents, to the same place below the final directory, and nothing else ends up there |
| FileSystem.RenameVacatesSource | tests/test_data.py:280-281 | after the commit rename nothing is left below the working directory |
| Store.FileStore.Exists | tests/test_data.py:32 | `exists()` is true exactly when a directory or a file is stored at the path |
| Store.FileStore.Mkdir | tests/test_data.py:152 | `mkdir()` succeeds exactly when the parent exists and the path does not, adding only that directory; on failure nothing changes |
| Store.FileStore.Rename | tests/test_data.py:158-160 | a rename either moves the whole tree atomically or fails with nothing changed |
| Store.FileStore.ReadFile | tests/test_data.py:225 | a read returns the stored contents, or NotFound exactly when no file is there |
| DataSpec.NativeType | tests/test_data.py:221 | the type a variant is asked to load is one it accepts; the generated variant accepts `Generator` |
| DataSpec.FilePath | tests/test_data.py:32 | the result file `<name>.<ext>` of a whole-file variant lies directly in the root and is neither the final nor the working directory |
| DataSpec.FinalPath | tests/test_data.py:158-160 | the committed directory lies directly in the root and is named after the location |
| DataSpec.TmpPath | tests/test_data.py:151 | the working directory lies directly in the root, next to and distinct from the final directory |
| DataSpec.RunInfoPath | tests/test_data.py:295-299 | the run-info sidecar lies directly in the root and is neither the final nor the working directory; `TaskProperties.RunInfoRoundTrip` pins its name `<name>.run_info.yaml` |
| DataSpec.Persisted | tests/test_data.py:263-268 | `exists()` never holds for the in-memory variant, and for a directory variant a working directory alone does not count |
| DataSpec.Bind | tests/test_data.py:149-151 | `init_persistence` binds the object to its location; a directory variant points at the final directory when it exists and otherwise at the working directory, which then exists |
| DataSpec.Save | tests/test_data.py:217-220 | a whole-file save succeeds exactly when the value is encodable and then writes its encoding at `<name>.<ext>` and changes nothing else; a failed save changes nothing; the directory variant's save is its commit; the in-memory and continuing variants store nothing |
| DataSpec.Load | tests/test_data.py:223-227 | a load succeeds only for an accepted type and a complete persisted result, and then the object's value is what it returns; an unaccepted type is TypeMismatch; nothing persisted is NotFound |
| DataSpec.EncodeDecode | tests/test_data.py:217-227 | decoding a saved encoding gives the saved value back, with a producer materialised as the list of its items |
| DataSpec.Commit | tests/test_data.py:158-160 | a successful commit of the working directory is the rename of `<name>_tmp` to `<name>`, with the store exactly as that rename leaves it, and points the object at the final directory; a failed one changes nothing; an object not in its working directory is left as it is |
| DataSpec.Delete | tests/test_data.py:169-170 | `delete()` removes the result file, or leaves nothing at or below the object's directory, and changes nothing else in the store; the whole-file and in-memory variants clear their in-memory value, the directory variants keep reporting their now removed directory |
| DataSpec.LoadRunInfo | tests/test_data.py:299-302 | the record read back is the stored object; NotFound when the sidecar is absent, TypeMismatch when it holds something other than an object |
| DataObjects.Data.constructor | tests/test_data.py:211 | a new Data object is unbound and holds `None` |
| DataObjects.Data.Value | tests/test_data.py:160 | `value` of a directory variant is its current directory, otherwise the value set or loaded |
| DataObjects.Data.InitPersistence | tests/test_data.py:212 | changes the object and the store exactly as `DataSpec.Bind` does |
| DataObjects.Data.Exists | tests/test_data.py:34-36 | is true exactly when a complete result is persisted, the check that lets a new instance reuse the result without running |
| DataObjects.Data.SetValue | tests/test_data.py:217 | replaces the value and nothing else |
| DataObjects.Data.Save | tests/test_data.py:218 | changes the object and the store exactly as `DataSpec.Save` does |
| DataObjects.Data.Commit | tests/test_data.py:158-160 | changes the object and the store exactly as `DataSpec.Commit` does |
| DataObjects.Data.Finished | tests/test_data.py:246 | `finished()` commits exactly as `DataSpec.Commit` does |
| DataObjects.Data.Load | tests/test_data.py:225 | gives what `DataSpec.Load` gives and changes only the object |
| DataObjects.Data.Delete | tests/test_data.py:169 | changes the object and the store exactly as `DataSpec.Delete` does |
| DataObjects.Data.SaveRunInfo | tests/test_data.py:297 | writes exactly the sidecar record |
| DataObjects.Data.LoadRunInfo | tests/test_data.py:300 | reads the sidecar record as `DataSpec.LoadRunInfo` does, changing nothing |
| TaskSpec.FirstMissing | tests/test_data.py:240-243 | returns the first marker index below `count` that is missing, all earlier markers existing, or none when all exist |
| TaskSpec.TaskDir | tests/test_data.py:32 | a task's directory lies under the config's base: `<group>/<name>` when a group is declared, `<name>` otherwise |
| TaskSpec.TaskLocationInjective | tests/test_data.py:38-42 | two configs give a task the same location exactly when they are the same config; result-file isolation is `TaskProperties.ResultFilesApart` and `TaskProperties.ConfigNamesIsolate`, and the directory variants' collision is `TaskProperties.TmpNamedConfigAdoptsUnfinishedWork` |
| TaskSpec.CheckpointRun | tests/test_data.py:240-249 | one run of the continuing task counts a run exactly when some marker is missing and creating the first missing one succeeds; with none missing the store is unchanged; before the last index the store gains exactly that marker |
| TaskSpec.Run | tests/test_data.py:147-153 | every fixture `run` counts at most one run |
| TaskSpec.Complete | tests/test_data.py:54-58 | saving what `run` returned adds no run; an error `run` raised propagates with the store as `run` left it; a success reports the value of the object that was saved |
| TaskSpec.Invoke | tests/test_data.py:26-36 | one process reading `value` runs the task at most once, leaves a bound Data object, and a successful value is that object's value |
| Tasks.Task.constructor | tests/test_data.py:16-18 | a new instance has nothing cached and `run_called` 0 |
| Tasks.Task.Value | tests/test_data.py:26-30 | a second read returns the cached value with nothing changed; the first read does what one process does (`TaskSpec.Invoke`): store, value and `run_called` as it says, and a successful value is cached |
| Tasks.Task.RunAndSave | tests/test_data.py:20-22 | runs `run` on the task's bound Data object, then sets or adopts the result and saves it, as `TaskSpec.Complete` says |
| Tasks.Task.Adopt | tests/test_data.py:57-62 | a returned Data object is saved and its value cached only when the save succeeds |
| Tasks.Task.Run | tests/test_data.py:147-153 | each fixture `run` changes the store and `run_called` as `TaskSpec.Run` says, and hands back the task's own object or a fresh one |
| Tasks.Task.RunCheckpoints | tests/test_data.py:240-249 | the loop creates the first missing marker, counts one run, calls `finished()` at the last index and stops, as `TaskSpec.CheckpointRun` says |
| TaskProperties.BindStartsInTmp | tests/test_data.py:151 | with the final directory absent, binding a directory variant points it at the working directory and changes nothing at the final directory or deeper than the working one |
| TaskProperties.WholeFileResultIsReused | tests/test_data.py:26-36 | a whole-file task runs once and writes `<name>.json`; a new process on the same config runs 0 times and returns the same value |
| TaskProperties.ResultFilesApart | tests/test_data.py:38-42 | configs with different names have different result files |
| TaskProperties.ConfigNamesIsolate | tests/test_data.py:38-42 | after a run under one config, a process under a differently named config still runs once |
| TaskProperties.InMemoryAlwaysRuns | tests/test_data.py:97-107 | an in-memory task runs once in every process whatever the store holds, creates its task directory and writes no file |
| TaskProperties.DirDataCommits | tests/test_data.py:151-162 | a directory task works in `<name>_tmp` while `<name>` is absent; afterwards `<name>` holds what `run` wrote, `<name>_tmp` is gone and the value is the final path |
| TaskProperties.DirCommitCarriesEntry | tests/test_data.py:151-162 | committing a working directory that holds an entry succeeds, leaves the entry under the final directory and nothing at the working one |
| TaskProperties.CommittedIsReused | tests/test_data.py:164-166 | once the final directory exists, a process runs 0 times and its value and object point at it |
| TaskProperties.DirDataLifecycle | tests/test_data.py:164-170 | a second process reuses the committed directory and deleting through it removes what `run` wrote |
| TaskProperties.DeleteAfterReuseVacates | tests/test_data.py:164-170 | deleting a reused committed directory result leaves neither the final nor the working directory |
| TaskProperties.DirDeleteRestarts | tests/test_data.py:164-170 | after that delete, the next process of the directory task runs once and recreates the final directory with what `run` writes |
| TaskProperties.WholeFileDeleteRestarts | tests/test_data.py:228-229 | deleting a loaded whole-file result removes the file, and the next process runs once with the same value |
| TaskProperties.FirstMissingIs | tests/test_data.py:240-243 | with markers below `i` present and marker `i` missing, the loop stops at `i` |
| TaskProperties.MarkerAdvances | tests/test_data.py:241-243 | creating marker `i` after `i` checkpoints leaves exactly the markers below `i + 1` |
| TaskProperties.RenameCommits | tests/test_data.py:245-246 | committing a working directory that holds the markers below `count` leaves exactly those markers in the final directory and removes the working one |
| TaskProperties.BindKeepsProgress | tests/test_data.py:263-266 | a new process binding the continuing variant keeps the markers left by earlier processes |
| TaskProperties.CheckpointStep | tests/test_data.py:255-282 | one process after `i < count` checkpoints adds marker `i` and runs once; the result stays uncommitted unless that was the last marker, in which case it is committed |
| TaskProperties.CommittedStaysCommitted | tests/test_data.py:284-287 | a committed result is read without running and stays committed with the same markers |
| TaskProperties.CheckpointsAccumulate | tests/test_data.py:252-282 | from nothing, after `n < count` processes the working directory holds exactly the markers below `n`; after `count` processes the result is committed with all of them |
| TaskProperties.ContinuingTaskLifecycle | tests/test_data.py:252-287 | the first `count` processes each run once, reporting the working directory until the last commits; the next runs 0 times |
| TaskProperties.ContinuingDeleteRestarts | tests/test_data.py:284-289 | deleting a committed continuing result makes the next process start over: it runs once and creates marker `0` in a new working directory, committing at once only with a single checkpoint |
| TaskProperties.WholeFileRoundTrip | tests/test_data.py:210-229 | a saved whole-file result is loaded back by a fresh object on the same location, and deleting removes the file |
| TaskProperties.GeneratedRoundTrip | tests/test_data.py:210-229 | a generator is saved to `<name>.jsonl` and drained, and comes back as the list of its items |
| TaskProperties.RunInfoRoundTrip | tests/test_data.py:293-302 | saving the run-info record creates `<name>.run_info.yaml` in the root; the record reads back as written; writing it changes neither `exists()` nor what `load` gives |
| TaskProperties.RunInfoSurvivesResult | tests/test_data.py:293-302 | for a Data object at its own location, saving or deleting the result, the commit rename included, leaves the run-info record as it was |
| TaskProperties.SaveKeepsSidecar | tests/test_data.py:293-302 | saving the result, the commit rename included, leaves the sidecar file as it was |
| TaskProperties.DeleteKeepsSidecar | tests/test_data.py:293-302 | deleting the result leaves the sidecar file as it was |
| TaskProperties.SidecarWriteKeepsResult | tests/test_data.py:293-299 | writing the sidecar leaves the result file and the final directory as they were |
| TaskProperties.PersistenceFixture | tests/test_data.py:11-78 | for `A` returning 1 or a `JSONData` holding 1: runs 1, 0, 1 across the three instances, value 1 each time, result at `x/a/test.json` |
| TaskProperties.InMemoryFixture | tests/test_data.py:81-138 | `A` and `B` run once in every process with value 1; `x/a` exists and nothing is under `x/b` |
| TaskProperties.DirFixture | tests/test_data.py:141-170 | `C` works in `c/test_tmp`, commits `c/test` holding `c`, is reused by a second instance, and after the delete `c/test/c` no longer exists |
| TaskProperties.FixtureDPaths | tests/test_data.py:253-258 | `D` works in `d/test_tmp` and commits to `d/test`; markers are `0` to `4` |
| TaskProperties.ContinuesFixtureWorking | tests/test_data.py:255-274 | processes one to three of `D` each run once and report `d/test_tmp`, which then holds markers `0` to `k-1` and not `k`, with `d/test` absent |
| TaskProperties.ContinuesFixtureCommitted | tests/test_data.py:276-282 | the fourth process of `D` runs once, commits and reports `d/test`, which holds `3` but not `4`, with `d/test_tmp` gone |
| TaskProperties.ContinuesFixtureReused | tests/test_data.py:284-287 | from any committed state of `D`, a new process runs 0 times, reports `d/test`, and `d/test/3` exists while `d/test/4` does not |
| TaskProperties.TmpNamedConfigAdoptsUnfinishedWork | tests/test_data.py:151 | the working directory of config `<n>` is the final directory of config `<n>_tmp`, so a process under `<n>_tmp` adopts another config's unfinished work without running |
| Scenarios.NewProcess | tests/test_data.py:34-36 | a new instance reading `value` once does exactly what `TaskSpec.Invoke` says |
| Scenarios.PersistenceScenario | tests/test_data.py:26-42 | the four reads of the persistence tests give 1 each time, with `run_called` 1, 1, 0, 1 |
| Scenarios.DirScenario | tests/test_data.py:155-170 | the directory test's reads on `Task` instances: value `c/test`, runs 1 then 0, and `c/test/c` no longer exists after the delete |
| Scenarios.CheckpointProcess | tests/test_data.py:238-249 | after `i < 4` checkpoints, a new instance of `D` runs once and adds marker `i`: the first three keep the work in progress and report `d/test_tmp`, the fourth commits and reports `d/test` |
| Scenarios.CommittedProcess | tests/test_data.py:284-287 | once `D` is committed, a new instance runs 0 times, reports `d/test`, and `d/test/3` exists while `d/test/4` does not |
| Scenarios.ContinuesScenario | tests/test_data.py:251-287 | five instances of `D`: `run_called` 1, 1, 1, 1, 0, values `d/test_tmp` three times and then `d/test` twice, with `d/test/3` present and `d/test/4` absent |

## Left out

- The numeric-array and tabular variants (test lines 173-207) are left out. They are encodings behind the same save and load contract as the whole-file variant.
- Real I/O and the text encodings (JSON, JSON lines, YAML) are left out. A stored file holds a `Json` value, and the encoding is the identity except for a generated stream, which is stored as its list.
- Generator laziness is left out. A producer is a finite `Stream` of items that saving drains, so single-pass behaviour is captured only as "drained to the empty stream".
- How the framework finds a task's group, name and data class (`Meta`, return annotations, name normalisation) is left out. `TaskDef` carries them directly, and `FixtureA`, `FixtureD` and the literal fixtures name them.
- Concurrency and crashes in the middle of an operation are left out. Each file-store operation is one atomic step, and a rename is an atomic move of a path prefix.
- The check after the last delete (test line 290) is left out. It looks for a numpy file the continuing test never writes, so it constrains nothing.
- Failures of the real filesystem other than those modelled are left out. Writing a file whose parent directory is missing, or creating a directory over a file, always succeeds or fails as the value functions say. Permission errors and a full disk are not modelled.
- `Tasks.Task.Value`: the directory test (lines 164-169) reaches `c2.data` without reading `value`, which loads the result. The scenario reads `value` first, which has the same effect on the store, so `DirScenario` states `run_called` 0 after that read rather than before any read.
- `Store.FileStore.Rename`: a rename whose source is missing, whose destination exists, or whose paths nest always fails with IOFailure. Platform-specific replacement of an existing empty directory is not modelled.
- The acceptance table of `is_data_type_accepted` is modelled only as far as the variants need it. `Accepts` gives the type each variant loads.
- `DataSpec.Delete`: after `delete()` a directory variant keeps its directory as its value, so `value` names a path that no longer exists. The tests never read a deleted object's `value`, and taskchain's own Data implementation is not part of this model, so whether it resets the value is not captured.

=== FILE: dataobjects.dfy ===
/**
  A Data object: one persistable result, changed in place by `init_persistence`, `set_value`,
  `save`, `load`, `delete` and `finished`. Every method moves the object and the shared store
  exactly as the matching function of `DataSpec` says.
 */
module DataObjects {
  import opened Paths
  import opened JsonValues
  import opened Outcomes
  import FileSystem
  import opened DataSpec
  import opened Store

  class Data {
    const kind: DataKind
    const store: FileStore
    var loc: Location
    var bound: bool
    var value: Payload
    var dir: Path

    /** The object's fields as a value. */
    function State(): DataState
      reads this
    {
      DataState(kind, loc, bound, value, dir)
    }

    constructor (kind: DataKind, store: FileStore)
      ensures State() == NewData(kind) && this.store == store
    {
      this.kind := kind;
      this.store := store;
      loc := Location([], "");
      bound := false;
      value := Plain(JNull);
      dir := [];
    }

    /** The `value` property. */
    function Value(): (v: Payload)
      reads this
      ensures kind.IsDir() ==> v == DirValue(dir)
      ensures !kind.IsDir() ==> v == value
    {
      Current(State())
    }

    method InitPersistence(at: Location)
      modifies this, store
      ensures State() == Bind(old(State()), old(store.State()), at).data
      ensures store.State() == Bind(old(State()), old(store.State()), at).fs
    {
      store.MakeDirs(at.root);
      loc, bound := at, true;
      if kind.IsDir() {
        var final := store.Exists(FinalPath(at));
        if final {
          dir := FinalPath(at);
        } else {
          store.MakeDirs(TmpPath(at));
          dir := TmpPath(at);
        }
      }
      FileSystem.MakeDirsEffect(old(store.State()), at.root, FinalPath(at));
    }

    method Exists() returns (b: bool)
      requires bound
      ensures b == Persisted(State(), store.State())
    {
      match kind
      case JsonFile | Generated =>
        b := FilePath(kind, loc) in store.files;
      case InMemory =>
        b := false;
      case Dir | Continues =>
        b := store.Exists(FinalPath(loc));
    }

    method SetValue(v: Payload)
      modifies this
      ensures State() == old(State()).(value := v)
    {
      value := v;
    }

    method Save() returns (st: Status)
      requires bound
      modifies this, store
      ensures State() == DataSpec.Save(old(State()), old(store.State())).data
      ensures store.State() == DataSpec.Save(old(State()), old(store.State())).fs
      ensures st == DataSpec.Save(old(State()), old(store.State())).status
    {
      match kind
      case JsonFile | Generated =>
        var encoded := Encode(kind, value);
        if encoded.Ok? {
          store.WriteFile(FilePath(kind, loc), encoded.value);
          value := Drained(value);
          st := Done;
        } else {
          st := Failed(encoded.error);
        }
      case InMemory | Continues =>
        st := Done;
      case Dir =>
        st := Commit();
    }

    /** Renames the working directory to the final one when this object still points at it. */
    method Commit() returns (st: Status)
      requires bound
      modifies this, store
      ensures State() == DataSpec.Commit(old(State()), old(store.State())).data
      ensures store.State() == DataSpec.Commit(old(State()), old(store.State())).fs
      ensures st == DataSpec.Commit(old(State()), old(store.State())).status
    {
      if dir == TmpPath(loc) {
        st := store.Rename(TmpPath(loc), FinalPath(loc));
        if st.Done? {
          dir := FinalPath(loc);
        }
      } else {
        st := Done;
      }
    }

    method Finished() returns (st: Status)
      requires bound && kind == Continues
      modifies this, store
      ensures State() == DataSpec.Finished(old(State()), old(store.State())).data
      ensures store.State() == DataSpec.Finished(old(State()), old(store.State())).fs
      ensures st == DataSpec.Finished(old(State()), old(store.State())).status
    {
      st := Commit();
    }

    method Load(expected: PyType) returns (r: Result<Payload>)
      requires bound
      modifies this
      ensures State() == DataSpec.Load(old(State()), store.State(), expected).data
      ensures r == DataSpec.Load(old(State()), store.State(), expected).result
    {
      if !Accepts(kind, expected) {
        return Err(TypeMismatch);
      }
      match kind
      case JsonFile | Generated =>
        var stored := store.ReadFile(FilePath(kind, loc));
        if stored.Err? {
          r := Err(stored.error);
        } else {
          r := Decode(kind, stored.value);
          if r.Ok? {
            value := r.value;
          }
        }
      case InMemory =>
        r := Err(NotFound);
      case Dir | Continues =>
        var final := store.Exists(FinalPath(loc));
        if final {
          dir := FinalPath(loc);
          r := Ok(DirValue(dir));
        } else {
          r := Err(NotFound);
        }
    }

    method Delete()
      requires bound
      modifies this, store
      ensures State() == DataSpec.Delete(old(State()), old(store.State())).data
      ensures store.State() == DataSpec.Delete(old(State()), old(store.State())).fs
    {
      match kind
      case JsonFile | Generated =>
        store.RemoveFile(FilePath(kind, loc));
        value := Plain(JNull);
      case InMemory =>
        value := Plain(JNull);
      case Dir | Continues =>
        store.RemoveTree(dir);
    }

    method SaveRunInfo(record: map<string, Json>)
      requires bound
      modifies store
      ensures store.State() == DataSpec.SaveRunInfo(State(), old(store.State()), record)
    {
      store.WriteFile(RunInfoPath(loc), JObj(record));
    }

    method LoadRunInfo() returns (r: Result<map<string, Json>>)
      requires bound
      ensures r == DataSpec.LoadRunInfo(State(), store.State())
    {
      var stored := store.ReadFile(RunInfoPath(loc));
      if stored.Err? {
        r := Err(stored.error);
      } else if stored.value.JObj? {
        r := Ok(stored.value.fields);
      } else {
        r := Err(TypeMismatch);
      }
    }
  }
}

=== FILE: dataspec.dfy ===
/**
  The Data capability as values: what each variant does to its in-memory state and to the
  file store when it is bound to a location, saved, loaded, deleted or finished.
  The variants form a closed set: a whole JSON file, in-memory only, a generated sequence
  stored as one line per item, a directory committed by rename, and a continuing directory.
 */
module DataSpec {
  import opened Paths
  import opened JsonValues
  import opened Outcomes
  import opened FileSystem

  datatype DataKind =
    | JsonFile    // `JSONData`: the whole value in `<name>.json`
    | InMemory    // `InMemoryData`: never written to the store
    | Generated   // `GeneratedData`: a finite producer saved to `<name>.jsonl`
    | Dir         // `DirData`: work in `<name>_tmp`, renamed to `<name>` on save
    | Continues   // `ContinuesData`: `<name>_tmp` survives across runs until `finished()`
  {
    predicate IsDir() { Dir? || Continues? }
    predicate IsFile() { JsonFile? || Generated? }
  }

  /** What `value` holds: a JSON-like value, a not yet drained producer, or a directory. */
  datatype Payload = Plain(json: Json) | Stream(items: seq<Json>) | DirValue(path: Path)

  /** The runtime shapes a caller may ask `load` for. */
  datatype PyType = JsonLike | GeneratorType | PathType

  /** Where a Data object lives: its root directory and the base name of its files. */
  datatype Location = Location(root: Path, name: string)

  datatype DataState = DataState(kind: DataKind, loc: Location, bound: bool, value: Payload, dir: Path)

  /** The result of one operation: the Data object's new state, the store's new state, success or failure. */
  datatype DataStep = DataStep(data: DataState, fs: FsState, status: Status)

  datatype Loaded = Loaded(data: DataState, result: Result<Payload>)

  function Extension(kind: DataKind): string
    requires kind.IsFile()
  {
    if kind == JsonFile then "json" else "jsonl"
  }

  /**
    `<name>.<ext>` for the whole-file variants: a file directly in the root, apart from the
    final and the working directory.
   */
  function FilePath(kind: DataKind, loc: Location): (r: Path)
    requires kind.IsFile()
    ensures |r| == |loc.root| + 1 && Under(r, loc.root)
    ensures r != FinalPath(loc) && r != TmpPath(loc)
  {
    var seg := loc.name + "." + Extension(kind);
    assert |seg| == |loc.name| + 1 + |Extension(kind)|;
    assert seg[|loc.name|] == '.' && (loc.name + "_tmp")[|loc.name|] == '_';
    loc.root + [seg]
  }

  /** `<name>`: the committed directory, directly in the root. */
  function FinalPath(loc: Location): (r: Path)
    ensures |r| == |loc.root| + 1 && Under(r, loc.root) && r[|loc.root|] == loc.name
  {
    loc.root + [loc.name]
  }

  /** `<name>_tmp`: the working directory, a sibling of the final directory. */
  function TmpPath(loc: Location): (r: Path)
    ensures |r| == |loc.root| + 1 && Under(r, loc.root)
    ensures r != FinalPath(loc)
  {
    assert |loc.name + "_tmp"| == |loc.name| + 4;
    loc.root + [loc.name + "_tmp"]
  }

  /** `<name>.run_info.yaml`: the sidecar record, apart from both directories. */
  function RunInfoPath(loc: Location): (r: Path)
    ensures |r| == |loc.root| + 1 && Under(r, loc.root)
    ensures r != FinalPath(loc) && r != TmpPath(loc)
  {
    var seg := loc.name + ".run_info.yaml";
    assert |seg| == |loc.name| + 14;
    assert seg[|loc.name|] == '.' && (loc.name + "_tmp")[|loc.name|] == '_';
    loc.root + [seg]
  }

  /** A freshly constructed, not yet bound Data object of the given variant; its value is `None`. */
  function NewData(kind: DataKind): DataState {
    DataState(kind, Location([], ""), false, Plain(JNull), [])
  }

  /** `value`: the directory variants report their current directory, the others what was set or loaded. */
  function Current(d: DataState): Payload {
    if d.kind.IsDir() then DirValue(d.dir) else d.value
  }

  /** `is_data_type_accepted`. */
  predicate Accepts(kind: DataKind, t: PyType) {
    match kind
    case JsonFile => t == JsonLike
    case Generated => t == GeneratorType
    case InMemory => true
    case Dir | Continues => t == PathType
  }

  /** The type a task asks for when it loads a variant's persisted value. */
  function NativeType(kind: DataKind): (t: PyType)
    ensures Accepts(kind, t)
  {
    match kind
    case JsonFile | InMemory => JsonLike
    case Generated => GeneratorType
    case Dir | Continues => PathType
  }

  /**
    `init_persistence(root, name)`: the root directory is created; a directory variant
    points at the final directory when it exists and otherwise creates and points at the
    working directory, keeping whatever an earlier run left there.
   */
  function Bind(d: DataState, fs: FsState, loc: Location): (r: DataStep)
    ensures r.data == d.(loc := loc, bound := true, dir := r.data.dir) && r.status == Done
    ensures d.kind.IsDir() ==> r.data.dir == (if Exists(fs, FinalPath(loc)) then FinalPath(loc) else TmpPath(loc))
    ensures d.kind.IsDir() ==> r.data.dir in r.fs.dirs || r.data.dir in r.fs.files
  {
    var fs1 := MakeDirs(fs, loc.root);
    MakeDirsEffect(fs, loc.root, FinalPath(loc));
    if !d.kind.IsDir() then
      DataStep(d.(loc := loc, bound := true), fs1, Done)
    else if Exists(fs1, FinalPath(loc)) then
      DataStep(d.(loc := loc, bound := true, dir := FinalPath(loc)), fs1, Done)
    else
      MakeDirsEffect(fs1, TmpPath(loc), TmpPath(loc));
      DataStep(d.(loc := loc, bound := true, dir := TmpPath(loc)), MakeDirs(fs1, TmpPath(loc)), Done)
  }

  /**
    `exists()`: a complete persisted representation is present. The in-memory variant never
    has one, and a working directory alone does not count for the directory variants.
   */
  predicate Persisted(d: DataState, fs: FsState)
    requires d.bound
    ensures d.kind.InMemory? ==> !Persisted(d, fs)
    ensures d.kind.IsDir() && Vacant(fs, FinalPath(d.loc)) ==> !Persisted(d, fs)
  {
    assert Under(FinalPath(d.loc), FinalPath(d.loc));
    match d.kind
    case JsonFile | Generated => FilePath(d.kind, d.loc) in fs.files
    case InMemory => false
    case Dir | Continues => Exists(fs, FinalPath(d.loc))
  }

  /** The stored form of a value, or a type mismatch when the variant cannot serialise it. */
  function Encode(kind: DataKind, v: Payload): Result<Json>
    requires kind.IsFile()
  {
    match (kind, v)
    case (JsonFile, Plain(j)) => Ok(j)
    case (Generated, Stream(items)) => Ok(JList(items))
    case (Generated, Plain(JList(items))) => Ok(JList(items))
    case _ => Err(TypeMismatch)
  }

  /** The in-memory value read back from a stored form. */
  function Decode(kind: DataKind, j: Json): Result<Payload>
    requires kind.IsFile()
  {
    match (kind, j)
    case (JsonFile, _) => Ok(Plain(j))
    case (Generated, JList(items)) => Ok(Plain(JList(items)))
    case _ => Err(TypeMismatch)
  }

  /** What a load gives back for a saved value: a producer comes back as the list of what it produced. */
  function Materialised(v: Payload): Payload {
    match v
    case Stream(items) => Plain(JList(items))
    case _ => v
  }

  /** The in-memory value after `save` has consumed it: a producer is single-pass. */
  function Drained(v: Payload): Payload {
    match v
    case Stream(_) => Stream([])
    case _ => v
  }

  lemma EncodeDecode(kind: DataKind, v: Payload)
    requires kind.IsFile() && Encode(kind, v).Ok?
    ensures Decode(kind, Encode(kind, v).value) == Ok(Materialised(v))
  {
    match v
    case Plain(j) =>
    case Stream(items) =>
  }

  /** The atomic commit: the working directory is renamed to the final one. */
  function Commit(d: DataState, fs: FsState): (r: DataStep)
    requires d.bound
    ensures r.status.Done? && d.dir == TmpPath(d.loc) ==> r.data.dir == FinalPath(d.loc)
    ensures r.status.Failed? ==> r.fs == fs && r.data == d
    ensures d.dir == TmpPath(d.loc) && r.status.Done? ==>
      Rename(fs, TmpPath(d.loc), FinalPath(d.loc)).Ok? && r.fs == Rename(fs, TmpPath(d.loc), FinalPath(d.loc)).value
    ensures d.dir != TmpPath(d.loc) ==> r == DataStep(d, fs, Done)
  {
    if d.dir == TmpPath(d.loc) then
      match Rename(fs, TmpPath(d.loc), FinalPath(d.loc))
      case Ok(fs1) => DataStep(d.(dir := FinalPath(d.loc)), fs1, Done)
      case Err(e) => DataStep(d, fs, Failed(e))
    else
      DataStep(d, fs, Done)
  }

  /**
    `save()`: a whole-file variant writes its encoded value in one step, `DirData` commits its
    working directory, and the in-memory and continuing variants store nothing here.
   */
  function Save(d: DataState, fs: FsState): (r: DataStep)
    requires d.bound
    ensures r.data.kind == d.kind && r.data.loc == d.loc && r.data.bound
    ensures d.kind.IsFile() ==> (r.status.Done? <==> Encode(d.kind, d.value).Ok?)
    ensures d.kind.IsFile() && r.status.Done? ==>
      FilePath(d.kind, d.loc) in r.fs.files && r.fs.files[FilePath(d.kind, d.loc)] == Encode(d.kind, d.value).value
    ensures r.status.Failed? ==> r.fs == fs
    ensures d.kind.IsFile() && r.status.Done? ==> r.fs == WriteFile(fs, FilePath(d.kind, d.loc), Encode(d.kind, d.value).value)
    ensures d.kind.InMemory? || d.kind == Continues ==> r == DataStep(d, fs, Done)
    ensures d.kind == Dir ==> r == Commit(d, fs)
  {
    match d.kind
    case JsonFile | Generated =>
      (match Encode(d.kind, d.value)
       case Ok(j) => DataStep(d.(value := Drained(d.value)), WriteFile(fs, FilePath(d.kind, d.loc), j), Done)
       case Err(e) => DataStep(d, fs, Failed(e)))
    case InMemory | Continues => DataStep(d, fs, Done)
    case Dir => Commit(d, fs)
  }

  /** `load(expected)`: reads the persisted representation into memory. */
  function Load(d: DataState, fs: FsState, expected: PyType): (r: Loaded)
    requires d.bound
    ensures r.result.Ok? ==> Persisted(d, fs) && Accepts(d.kind, expected) && Current(r.data) == r.result.value
    ensures !Accepts(d.kind, expected) ==> r.result == Err(TypeMismatch)
    ensures Accepts(d.kind, expected) && !Persisted(d, fs) ==> r.result == Err(NotFound)
    ensures r.data.kind == d.kind && r.data.loc == d.loc && r.data.bound
  {
    if !Accepts(d.kind, expected) then Loaded(d, Err(TypeMismatch))
    else match d.kind
      case JsonFile | Generated =>
        var p := FilePath(d.kind, d.loc);
        if p !in fs.files then Loaded(d, Err(NotFound))
        else (match Decode(d.kind, fs.files[p])
              case Ok(v) => Loaded(d.(value := v), Ok(v))
              case Err(e) => Loaded(d, Err(e)))
      case InMemory => Loaded(d, Err(NotFound))
      case Dir | Continues =>
        if Exists(fs, FinalPath(d.loc)) then Loaded(d.(dir := FinalPath(d.loc)), Ok(DirValue(FinalPath(d.loc))))
        else Loaded(d, Err(NotFound))
  }

  /**
    `delete()`: removes the persisted representation, if any. The whole-file and in-memory
    variants also clear their in-memory value; the directory variants keep pointing at their
    directory, which no longer exists.
   */
  function Delete(d: DataState, fs: FsState): (r: DataStep)
    requires d.bound
    ensures r.status == Done
    ensures r.data.kind == d.kind && r.data.loc == d.loc && r.data.bound
    ensures d.kind.IsFile() ==> FilePath(d.kind, d.loc) !in r.fs.files && !Persisted(r.data, r.fs)
    ensures d.kind.IsDir() ==> Vacant(r.fs, d.dir)
    ensures !d.kind.IsDir() ==> r.data.value == Plain(JNull)
    ensures d.kind.IsDir() ==> r.data == d && Current(r.data) == DirValue(d.dir)
    ensures forall q :: (d.kind.IsDir() ==> !Under(q, d.dir)) && (d.kind.IsFile() ==> q != FilePath(d.kind, d.loc)) ==>
      && (q in r.fs.dirs <==> q in fs.dirs)
      && (q in r.fs.files <==> q in fs.files)
      && (q in fs.files ==> r.fs.files[q] == fs.files[q])
  {
    match d.kind
    case JsonFile | Generated =>
      DataStep(d.(value := Plain(JNull)), RemoveFile(fs, FilePath(d.kind, d.loc)), Done)
    case InMemory => DataStep(d.(value := Plain(JNull)), fs, Done)
    case Dir | Continues =>
      RemoveTreeEffect(fs, d.dir, d.dir);
      DataStep(d, RemoveTree(fs, d.dir), Done)
  }

  /** `finished()` of `ContinuesData`: commits the working directory by rename. */
  function Finished(d: DataState, fs: FsState): DataStep
    requires d.bound && d.kind == Continues
  {
    Commit(d, fs)
  }

  /** `save_run_info(record)`: writes the sidecar record. */
  function SaveRunInfo(d: DataState, fs: FsState, record: map<string, Json>): FsState
    requires d.bound
  {
    WriteFile(fs, RunInfoPath(d.loc), JObj(record))
  }

  /** `load_run_info()`: reads the sidecar record back. */
  function LoadRunInfo(d: DataState, fs: FsState): (r: Result<map<string, Json>>)
    requires d.bound
    ensures r.Err? ==> r.error == NotFound || r.error == TypeMismatch
    ensures r.Ok? ==> RunInfoPath(d.loc) in fs.files && fs.files[RunInfoPath(d.loc)] == JObj(r.value)
    ensures RunInfoPath(d.loc) !in fs.files ==> r == Err(NotFound)
    ensures RunInfoPath(d.loc) in fs.files && !fs.files[RunInfoPath(d.loc)].JObj? ==> r == Err(TypeMismatch)
  {
    var p := RunInfoPath(d.loc);
    if p !in fs.files then Err(NotFound)
    else match fs.files[p]
      case JObj(record) => Ok(record)
      case _ => Err(TypeMismatch)
  }
}

=== FILE: filestore.dfy ===
/**
  The shared file store every process works on. A `FileStore` outlives the task instances
  built on it: a new instance standing for a new process sees what earlier ones stored.
 */
module Store {
  import opened Paths
  import opened JsonValues
  import opened Outcomes
  import FileSystem

  class FileStore {
    var dirs: set<Path>
    var files: map<Path, Json>

    /** The store's contents as a value. */
    function State(): FileSystem.FsState
      reads this
    {
      FileSystem.FsState(dirs, files)
    }

    constructor (initial: FileSystem.FsState)
      ensures State() == initial
    {
      dirs := initial.dirs;
      files := initial.files;
    }

    method Exists(p: Path) returns (b: bool)
      ensures b == FileSystem.Exists(State(), p)
    {
      b := p in dirs || p in files;
    }

    method MakeDirs(p: Path)
      modifies this
      ensures State() == FileSystem.MakeDirs(old(State()), p)
    {
      dirs := dirs + Ancestors(p);
    }

    method Mkdir(p: Path) returns (ok: bool)
      modifies this
      ensures ok == FileSystem.Mkdir(old(State()), p).Ok?
      ensures ok ==> State() == FileSystem.Mkdir(old(State()), p).value
      ensures !ok ==> State() == old(State())
    {
      ok := p != [] && p[..|p| - 1] in dirs && p !in dirs && p !in files;
      if ok {
        dirs := dirs + {p};
      }
    }

    method WriteFile(p: Path, content: Json)
      modifies this
      ensures State() == FileSystem.WriteFile(old(State()), p, content)
    {
      files := files[p := content];
    }

    method ReadFile(p: Path) returns (r: Result<Json>)
      ensures r.Ok? <==> p in files
      ensures r.Ok? ==> r.value == files[p]
      ensures r.Err? ==> r.error == NotFound
    {
      if p in files {
        r := Ok(files[p]);
      } else {
        r := Err(NotFound);
      }
    }

    method RemoveFile(p: Path)
      modifies this
      ensures State() == FileSystem.RemoveFile(old(State()), p)
    {
      files := files - {p};
    }

    method RemoveTree(p: Path)
      modifies this
      ensures State() == FileSystem.RemoveTree(old(State()), p)
    {
      var s := FileSystem.RemoveTree(State(), p);
      dirs, files := s.dirs, s.files;
    }

    method Rename(src: Path, dst: Path) returns (st: Status)
      modifies this
      ensures st.Done? == FileSystem.Rename(old(State()), src, dst).Ok?
      ensures st.Done? ==> State() == FileSystem.Rename(old(State()), src, dst).value
      ensures st.Failed? ==> st.error == IOFailure && State() == old(State())
    {
      var r := FileSystem.Rename(State(), src, dst);
      if r.Ok? {
        dirs, files := r.value.dirs, r.value.files;
        st := Done;
      } else {
        st := Failed(IOFailure);
      }
    }
  }
}

=== FILE: filesystem.dfy ===
/**
  The file store as a value: a set of directory paths and a map from file paths to their
  contents. Each function is one filesystem operation the persistence layer performs;
  a rename moves every key beneath one path prefix to another prefix in a single step.
 */
module FileSystem {
  import opened Paths
  import opened JsonValues
  import opened Outcomes

  datatype FsState = FsState(dirs: set<Path>, files: map<Path, Json>)

  /** `Path.exists()`: a directory or a file is stored at `p`. */
  predicate Exists(fs: FsState, p: Path) {
    p in fs.dirs || p in fs.files
  }

  /** Nothing at all is stored at `p` or beneath it. */
  predicate Vacant(fs: FsState, p: Path) {
    && (forall q :: q in fs.dirs ==> !Under(q, p))
    && (forall q :: q in fs.files ==> !Under(q, p))
  }

  /** `mkdir(parents=True, exist_ok=True)`. */
  function MakeDirs(fs: FsState, p: Path): FsState {
    fs.(dirs := fs.dirs + Ancestors(p))
  }

  /** Plain `mkdir()`: fails when `p` already exists or its parent directory does not. */
  function Mkdir(fs: FsState, p: Path): Result<FsState> {
    if p != [] && p[..|p| - 1] in fs.dirs && !Exists(fs, p) then Ok(fs.(dirs := fs.dirs + {p}))
    else Err(IOFailure)
  }

  /** Writes the whole file `p` in one step. */
  function WriteFile(fs: FsState, p: Path, content: Json): FsState {
    fs.(files := fs.files[p := content])
  }

  /** Unlinks the file `p`; nothing happens when it is absent. */
  function RemoveFile(fs: FsState, p: Path): FsState {
    fs.(files := fs.files - {p})
  }

  /** `rmtree(p)`: removes `p` and everything beneath it; nothing happens when it is absent. */
  function RemoveTree(fs: FsState, p: Path): FsState {
    FsState(set q | q in fs.dirs && !Under(q, p), map q | q in fs.files && !Under(q, p) :: fs.files[q])
  }

  /** Moves everything stored beneath `src` to the same place beneath `dst`. */
  function Move(fs: FsState, src: Path, dst: Path): FsState {
    var kept := RemoveTree(RemoveTree(fs, src), dst);
    RebaseInjective(src, dst);
    FsState(
      kept.dirs + (set q | q in fs.dirs && Under(q, src) :: Rebase(q, src, dst)),
      kept.files + (map q | q in fs.files && Under(q, src) :: Rebase(q, src, dst) := fs.files[q]))
  }

  /** Renaming `src` to `dst` is possible when `src` exists, `dst` does not, and neither lies beneath the other. */
  predicate CanRename(fs: FsState, src: Path, dst: Path) {
    Exists(fs, src) && !Exists(fs, dst) && !Under(src, dst) && !Under(dst, src)
  }

  /** `src.rename(dst)`: one atomic move of the prefix `src`, or an I/O failure with nothing changed. */
  function Rename(fs: FsState, src: Path, dst: Path): Result<FsState> {
    if CanRename(fs, src, dst) then Ok(Move(fs, src, dst)) else Err(IOFailure)
  }

  /** A rename carries every entry beneath `src` to `dst`, with its contents, and nothing else ends up beneath `dst`. */
  lemma RenameMoves(fs: FsState, src: Path, dst: Path, rel: Path)
    requires CanRename(fs, src, dst)
    ensures var r := Move(fs, src, dst);
      && (dst + rel in r.dirs <==> src + rel in fs.dirs)
      && (dst + rel in r.files <==> src + rel in fs.files)
      && (src + rel in fs.files ==> r.files[dst + rel] == fs.files[src + rel])
  {
    var r := Move(fs, src, dst);
    var q := src + rel;
    assert Under(q, src) && q[|src|..] == rel;
    assert Rebase(q, src, dst) == dst + rel;
    RebaseInjective(src, dst);
    assert Under(dst + rel, dst);
    if dst + rel in r.dirs {
      assert exists q' :: q' in fs.dirs && Under(q', src) && Rebase(q', src, dst) == dst + rel;
      forall q' | q' in fs.dirs && Under(q', src) && Rebase(q', src, dst) == dst + rel ensures q' == q {
        assert q' == q'[..|src|] + q'[|src|..];
      }
    }
    if dst + rel in r.files {
      assert exists q' :: q' in fs.files && Under(q', src) && Rebase(q', src, dst) == dst + rel;
      forall q' | q' in fs.files && Under(q', src) && Rebase(q', src, dst) == dst + rel ensures q' == q {
        assert q' == q'[..|src|] + q'[|src|..];
      }
    }
  }

  /** After a rename nothing is left beneath `src`. */
  lemma RenameVacatesSource(fs: FsState, src: Path, dst: Path)
    requires CanRename(fs, src, dst)
    ensures Vacant(Move(fs, src, dst), src)
  {
    var r := Move(fs, src, dst);
    forall q | q in r.dirs ensures !Under(q, src) {
      if Under(q, dst) {
        assert !Under(q, src) by { DisjointPrefixes(src, dst, q); }
      }
    }
    forall q | q in r.files ensures !Under(q, src) {
      if Under(q, dst) {
        assert !Under(q, src) by { DisjointPrefixes(src, dst, q); }
      }
    }
  }

  /** Two prefixes neither of which lies beneath the other have no path in common beneath them. */
  lemma DisjointPrefixes(a: Path, b: Path, q: Path)
    requires !Under(a, b) && !Under(b, a)
    ensures !(Under(q, a) && Under(q, b))
  {
  }

  /** A rename changes nothing outside `src` and `dst`. */
  lemma RenameFrame(fs: FsState, src: Path, dst: Path, q: Path)
    requires CanRename(fs, src, dst)
    requires !Under(q, src) && !Under(q, dst)
    ensures var r := Move(fs, src, dst);
      && (q in r.dirs <==> q in fs.dirs)
      && (q in r.files <==> q in fs.files)
      && (q in fs.files ==> r.files[q] == fs.files[q])
  {
  }

  /** `rmtree` leaves nothing beneath `p` and changes nothing elsewhere. */
  lemma RemoveTreeEffect(fs: FsState, p: Path, q: Path)
    ensures Vacant(RemoveTree(fs, p), p)
    ensures !Under(q, p) ==>
      && (q in RemoveTree(fs, p).dirs <==> q in fs.dirs)
      && (q in RemoveTree(fs, p).files <==> q in fs.files)
      && (q in fs.files ==> RemoveTree(fs, p).files[q] == fs.files[q])
  {
  }

  /** `mkdir(parents=True)` adds directories at `p` and its ancestors only. */
  lemma MakeDirsEffect(fs: FsState, p: Path, q: Path)
    ensures p != [] ==> p in MakeDirs(fs, p).dirs
    ensures MakeDirs(fs, p).files == fs.files
    ensures q in MakeDirs(fs, p).dirs <==> q in fs.dirs || (q != [] && |q| <= |p| && p[..|q|] == q)
  {
    if q != [] && |q| <= |p| && p[..|q|] == q {
      assert q in Ancestors(p);
    }
  }
}

=== FILE: paths.dfy ===
/** Paths of the file store: a path is the sequence of its segments. */
module Paths {

  type Segment = string
  type Path = seq<Segment>

  /** `p` is `root` itself or lies somewhere beneath it. */
  predicate Under(p: Path, root: Path) {
    |root| <= |p| && p[..|root|] == root
  }

  /** Every directory that `mkdir(parents=True)` on `p` brings into being: `p` and its proper ancestors. */
  function Ancestors(p: Path): (r: set<Path>)
    ensures p != [] ==> p in r
    ensures forall q :: q in r ==> q != [] && |q| <= |p| && p[..|q|] == q
  {
    assert p != [] ==> p == p[..|p|];
    set i | 1 <= i <= |p| :: p[..i]
  }

  /** The path `q` had beneath `src`, moved beneath `dst`. */
  function Rebase(q: Path, src: Path, dst: Path): (r: Path)
    requires Under(q, src)
    ensures Under(r, dst) && |r| == |dst| + |q| - |src|
    ensures r[|dst|..] == q[|src|..]
  {
    dst + q[|src|..]
  }

  lemma RebaseInjective(src: Path, dst: Path)
    ensures forall q1, q2 :: Under(q1, src) && Under(q2, src) && Rebase(q1, src, dst) == Rebase(q2, src, dst) ==> q1 == q2
  {
    forall q1, q2 | Under(q1, src) && Under(q2, src) && Rebase(q1, src, dst) == Rebase(q2, src, dst)
      ensures q1 == q2
    {
      assert q1 == q1[..|src|] + q1[|src|..];
      assert q2 == q2[..|src|] + q2[|src|..];
    }
  }

  /** Two siblings, `root + [a]` and `root + [b]` with `a != b`, are not beneath one another. */
  lemma SiblingsApart(root: Path, a: Segment, b: Segment, q: Path)
    requires a != b
    ensures Under(q, root + [a]) ==> !Under(q, root + [b])
  {
    if Under(q, root + [a]) {
      assert q[..|root| + 1][|root|] == a;
    }
  }

  /** The character for a decimal digit. */
  function Digit(n: nat): (c: char)
    requires n < 10
    ensures '0' <= c <= '9'
  {
    ('0' as int + n) as char
  }

  /** Python's `str(n)` for a natural number: its decimal numeral without leading zeros. */
  function NatToString(n: nat): (s: string)
    ensures 1 <= |s|
    ensures forall k :: 0 <= k < |s| ==> '0' <= s[k] <= '9'
    ensures n < 10 <==> |s| == 1
  {
    if n < 10 then [Digit(n)] else NatToString(n / 10) + [Digit(n % 10)]
  }

  /** Distinct numbers give distinct numerals, so the checkpoint markers `0`, `1`, ... never clash. */
  lemma {:induction false} NatToStringInjective(a: nat, b: nat)
    ensures NatToString(a) == NatToString(b) ==> a == b
  {
    if NatToString(a) == NatToString(b) {
      var s := NatToString(a);
      if a < 10 {
        assert b < 10;
        assert s[0] == Digit(a) && s[0] == Digit(b);
      } else {
        assert b >= 10;
        var n := |s|;
        assert s[n - 1] == Digit(a % 10) && s[n - 1] == Digit(b % 10);
        assert NatToString(a / 10) == s[..n - 1] == NatToString(b / 10);
        NatToStringInjective(a / 10, b / 10);
      }
    }
  }

  /** Appending the same suffix keeps different names different. */
  lemma SuffixCancel(a: string, b: string, suffix: string)
    ensures a + suffix == b + suffix ==> a == b
  {
    if a + suffix == b + suffix {
      assert a == (a + suffix)[..|a|];
      assert b == (b + suffix)[..|b|];
    }
  }
}

=== FILE: properties.dfy ===
/**
  What the task cache promises, proved about the value-level model: memoised results are
  reused by later processes, runs of different configs stay apart, the in-memory variant
  never persists, directory results are committed atomically, and a continuing result is
  built one checkpoint per process until it is finished.
 */
module TaskProperties {
  import opened Paths
  import opened JsonValues
  import opened Outcomes
  import opened FileSystem
  import opened DataSpec
  import opened TaskSpec

  // ---------------------------------------------------------------- paths

  /** The working and final directories are siblings: neither lies beneath the other. */
  lemma DirPathsApart(loc: Location)
    ensures TmpPath(loc) != FinalPath(loc)
    ensures !Under(TmpPath(loc), FinalPath(loc)) && !Under(FinalPath(loc), TmpPath(loc))
  {
    assert |loc.name + "_tmp"| == |loc.name| + 4;
    SiblingsApart(loc.root, loc.name, loc.name + "_tmp", FinalPath(loc));
    SiblingsApart(loc.root, loc.name + "_tmp", loc.name, TmpPath(loc));
  }

  /** A path longer than `p` is never among the directories `mkdir(parents=True)` creates for `p`. */
  lemma MakeDirsKeepsLonger(fs: FsState, p: Path)
    ensures MakeDirs(fs, p).files == fs.files
    ensures forall q :: |q| > |p| ==> (q in MakeDirs(fs, p).dirs <==> q in fs.dirs)
  {
    forall q | |q| > |p| ensures q in MakeDirs(fs, p).dirs <==> q in fs.dirs {
      MakeDirsEffect(fs, p, q);
    }
  }

  // ---------------------------------------------------------------- binding a directory variant

  /**
    Binding a directory variant whose final directory is absent points it at the working
    directory, which then exists; nothing at the final directory or deeper than the working
    directory changes.
   */
  lemma BindStartsInTmp(fs: FsState, kind: DataKind, loc: Location)
    requires kind.IsDir() && Vacant(fs, FinalPath(loc))
    ensures var b := Bind(NewData(kind), fs, loc);
      && b.data == NewData(kind).(loc := loc, bound := true, dir := TmpPath(loc))
      && TmpPath(loc) in b.fs.dirs && b.fs.files == fs.files
      && Vacant(b.fs, FinalPath(loc))
      && (forall q :: |q| > |TmpPath(loc)| ==> (q in b.fs.dirs <==> q in fs.dirs))
  {
    var final, tmp := FinalPath(loc), TmpPath(loc);
    assert Under(final, final);
    assert !Exists(fs, final);
    var fs1 := MakeDirs(fs, loc.root);
    var b := Bind(NewData(kind), fs, loc);
    assert b.fs == MakeDirs(fs1, tmp);
    MakeDirsKeepsLonger(fs, loc.root);
    MakeDirsKeepsLonger(fs1, tmp);
    DirPathsApart(loc);
    forall q | q in b.fs.dirs ensures !Under(q, final) {
      if q !in fs.dirs {
        MakeDirsEffect(fs1, tmp, q);
        if q !in fs1.dirs {
          assert |q| <= |tmp| && tmp[..|q|] == q;
        } else {
          MakeDirsEffect(fs, loc.root, q);
        }
      }
    }
  }

  // ---------------------------------------------------------------- memoisation across processes

  /**
    A whole-file task whose result file is absent runs once, leaves `<name>.json` in its
    directory and returns the value `run` produced; a second process on an equal config finds
    the file, runs 0 times and returns the same value.
   */
  lemma WholeFileResultIsReused(fs: FsState, c: Config, t: TaskDef, v: Json)
    requires Compatible(t) && t.dataClass == JsonFile
    requires t.body == ReturnPlain(v) || t.body == ReturnJsonData(v)
    requires FilePath(JsonFile, TaskLocation(c, t)) !in fs.files
    ensures var first := Invoke(fs, c, t);
      && first.runs == 1 && first.result == Ok(Plain(v))
      && first.fs.files == fs.files[FilePath(JsonFile, TaskLocation(c, t)) := v]
      && var second := Invoke(first.fs, c, t);
         second.runs == 0 && second.result == Ok(Plain(v)) && second.fs.files == first.fs.files
  {
    var at := TaskLocation(c, t);
    var b := Bind(NewData(JsonFile), fs, at);
    assert !Persisted(b.data, b.fs);
    var first := Invoke(fs, c, t);
    assert first.fs.files[FilePath(JsonFile, at)] == v;
    var b2 := Bind(NewData(JsonFile), first.fs, at);
    assert Persisted(b2.data, b2.fs);
    MakeDirsKeepsLonger(first.fs, at.root);
  }

  /** The result file of config `name` is `<name>.json`, so distinct names never share one. */
  lemma ResultFilesApart(c1: Config, c2: Config, t: TaskDef)
    requires c1.base == c2.base && c1.name != c2.name
    ensures FilePath(JsonFile, TaskLocation(c1, t)) != FilePath(JsonFile, TaskLocation(c2, t))
  {
    var p1, p2 := FilePath(JsonFile, TaskLocation(c1, t)), FilePath(JsonFile, TaskLocation(c2, t));
    if p1 == p2 {
      assert p1[|p1| - 1] == c1.name + "." + "json" == c1.name + ".json";
      assert p2[|p2| - 1] == c2.name + "." + "json" == c2.name + ".json";
      SuffixCancel(c1.name, c2.name, ".json");
    }
  }

  /**
    Two configs that differ only in their name do not share results: after a process ran the
    task under the first, a process under the second still runs it once.
   */
  lemma ConfigNamesIsolate(fs: FsState, c1: Config, c2: Config, t: TaskDef, v: Json)
    requires Compatible(t) && t.dataClass == JsonFile
    requires t.body == ReturnPlain(v) || t.body == ReturnJsonData(v)
    requires c1.base == c2.base && c1.name != c2.name
    requires FilePath(JsonFile, TaskLocation(c2, t)) !in fs.files
    ensures var first := Invoke(fs, c1, t);
      var second := Invoke(first.fs, c2, t);
      second.runs == 1 && second.result == Ok(Plain(v))
  {
    var first := Invoke(fs, c1, t);
    ResultFilesApart(c1, c2, t);
    var b := Bind(NewData(JsonFile), fs, TaskLocation(c1, t));
    if !Persisted(b.data, b.fs) {
      assert first.fs.files == fs.files[FilePath(JsonFile, TaskLocation(c1, t)) := v];
    }
    assert FilePath(JsonFile, TaskLocation(c2, t)) !in first.fs.files;
    var b2 := Bind(NewData(JsonFile), first.fs, TaskLocation(c2, t));
    assert !Persisted(b2.data, b2.fs);
  }

  /**
    The in-memory variant never persists: every process runs the task once and returns the
    value `run` produced, whatever the store holds. The task directory is still created and no
    file is written.
   */
  lemma InMemoryAlwaysRuns(fs: FsState, c: Config, t: TaskDef, v: Json)
    requires Compatible(t) && t.dataClass == InMemory
    requires t.body == ReturnPlain(v) || t.body == ReturnInMemoryData(v)
    ensures var i := Invoke(fs, c, t);
      && i.runs == 1 && i.result == Ok(Plain(v))
      && TaskDir(c, t) in i.fs.dirs && i.fs.files == fs.files
  {
    var at := TaskLocation(c, t);
    MakeDirsEffect(fs, at.root, at.root);
  }

  // ---------------------------------------------------------------- atomic directory commit

  /**
    A directory task starting from nothing at either of its paths works in `<name>_tmp`
    during `run`, while `<name>` is still absent; once `value` returns, `<name>` exists and holds
    what `run` wrote, `<name>_tmp` is gone, and the value is the final path.
   */
  lemma DirDataCommits(fs: FsState, c: Config, t: TaskDef, entry: Segment)
    requires Compatible(t) && t.body == WriteIntoDir(entry)
    requires Vacant(fs, FinalPath(TaskLocation(c, t))) && Vacant(fs, TmpPath(TaskLocation(c, t)))
    ensures var at := TaskLocation(c, t);
      var b := Bind(NewData(Dir), fs, at);
      && b.data.dir == TmpPath(at) && !Exists(b.fs, FinalPath(at))
      && TaskSpec.Run(t.body, b.data, b.fs).fs.dirs == b.fs.dirs + {TmpPath(at) + [entry]}
    ensures var at := TaskLocation(c, t);
      var i := Invoke(fs, c, t);
      && i.runs == 1 && i.result == Ok(DirValue(FinalPath(at)))
      && FinalPath(at) in i.fs.dirs && FinalPath(at) + [entry] in i.fs.dirs
      && Vacant(i.fs, TmpPath(at))
  {
    var at := TaskLocation(c, t);
    var final, tmp := FinalPath(at), TmpPath(at);
    BindStartsInTmp(fs, Dir, at);
    var b := Bind(NewData(Dir), fs, at);
    assert Under(final, final);
    assert !Persisted(b.data, b.fs);
    var marker := tmp + [entry];
    assert Under(marker, tmp) && |marker| > |tmp|;
    assert marker !in b.fs.dirs;
    assert marker !in b.fs.files;
    assert marker[..|marker| - 1] == tmp;
    var fs2 := b.fs.(dirs := b.fs.dirs + {marker});
    assert Mkdir(b.fs, marker) == Ok(fs2);
    DirPathsApart(at);
    assert Vacant(fs2, final) by {
      DisjointPrefixes(tmp, final, marker);
    }
    DirCommitCarriesEntry(fs2, at, entry);
  }

  /** Committing a working directory that holds `entry` leaves `entry` in the final directory and nothing in the working one. */
  lemma DirCommitCarriesEntry(fs: FsState, at: Location, entry: Segment)
    requires TmpPath(at) in fs.dirs && TmpPath(at) + [entry] in fs.dirs && Vacant(fs, FinalPath(at))
    ensures Rename(fs, TmpPath(at), FinalPath(at)).Ok?
    ensures var r := Rename(fs, TmpPath(at), FinalPath(at)).value;
      FinalPath(at) in r.dirs && FinalPath(at) + [entry] in r.dirs && Vacant(r, TmpPath(at))
  {
    var final, tmp := FinalPath(at), TmpPath(at);
    DirPathsApart(at);
    assert Under(final, final);
    assert CanRename(fs, tmp, final);
    RenameMoves(fs, tmp, final, []);
    assert tmp + [] == tmp && final + [] == final;
    RenameMoves(fs, tmp, final, [entry]);
    RenameVacatesSource(fs, tmp, final);
  }

  /**
    Once the final directory of a directory variant exists, a process runs the task 0 times,
    its value is the final path, and its Data object points at the final directory.
   */
  lemma CommittedIsReused(fs: FsState, c: Config, t: TaskDef)
    requires Compatible(t) && t.dataClass.IsDir()
    requires Exists(fs, FinalPath(TaskLocation(c, t)))
    ensures var i := Invoke(fs, c, t);
      && i.runs == 0 && i.result == Ok(DirValue(FinalPath(TaskLocation(c, t))))
      && i.data.dir == FinalPath(TaskLocation(c, t)) && i.data.kind == t.dataClass && i.data.bound
      && i.fs == MakeDirs(fs, TaskDir(c, t))
  {
    MakeDirsKeepsLonger(fs, TaskDir(c, t));
  }

  /**
    The directory task's life: the first process commits, a second runs 0 times with the same
    value, and deleting through the second process's Data object removes the final directory
    with everything `run` wrote into it.
   */
  lemma DirDataLifecycle(fs: FsState, c: Config, t: TaskDef, entry: Segment)
    requires Compatible(t) && t.body == WriteIntoDir(entry)
    requires Vacant(fs, FinalPath(TaskLocation(c, t))) && Vacant(fs, TmpPath(TaskLocation(c, t)))
    ensures var final := FinalPath(TaskLocation(c, t));
      var first := Invoke(fs, c, t);
      var second := Invoke(first.fs, c, t);
      var deleted := Delete(second.data, second.fs);
      && second.runs == 0 && second.result == first.result
      && final + [entry] in second.fs.dirs
      && Vacant(deleted.fs, final) && final + [entry] !in deleted.fs.dirs
  {
    var final := FinalPath(TaskLocation(c, t));
    DirDataCommits(fs, c, t, entry);
    var first := Invoke(fs, c, t);
    CommittedIsReused(first.fs, c, t);
    var second := Invoke(first.fs, c, t);
    MakeDirsEffect(first.fs, TaskDir(c, t), final + [entry]);
    assert Under(final + [entry], final);
  }

  // ---------------------------------------------------------------- checkpoint / resume

  /** `i` checkpoints are done and the result is not committed: the working directory holds exactly the markers below `i`. */
  ghost predicate Progress(fs: FsState, at: Location, i: nat) {
    && Vacant(fs, FinalPath(at))
    && (forall j: nat :: Exists(fs, Marker(TmpPath(at), j)) <==> j < i)
    && (i > 0 ==> TmpPath(at) in fs.dirs)
  }

  /** The result is committed: the final directory holds exactly the markers below `count` and the working directory is gone. */
  ghost predicate Committed(fs: FsState, at: Location, count: nat) {
    && FinalPath(at) in fs.dirs
    && Vacant(fs, TmpPath(at))
    && (forall j: nat :: Exists(fs, Marker(FinalPath(at), j)) <==> j < count)
  }

  /** With the markers below `i` present and marker `i` missing, the checkpoint loop stops at `i`. */
  lemma {:induction false} FirstMissingIs(fs: FsState, dir: Path, k: nat, i: nat, count: nat)
    requires k <= i < count
    requires forall j: nat :: j < i ==> Exists(fs, Marker(dir, j))
    requires !Exists(fs, Marker(dir, i))
    ensures FirstMissing(fs, dir, k, count) == Some(i)
    decreases i - k
  {
    if k < i {
      FirstMissingIs(fs, dir, k + 1, i, count);
    }
  }

  /** A marker is a child of its directory, one level below it. */
  lemma MarkerShape(dir: Path, j: nat)
    ensures |Marker(dir, j)| == |dir| + 1 && Under(Marker(dir, j), dir)
    ensures Marker(dir, j)[..|dir|] == dir
  {
  }

  /** Creating marker `i` in the working directory of a `Progress(i)` state reaches `Progress(i + 1)`. */
  lemma MarkerAdvances(fs: FsState, at: Location, i: nat)
    requires Progress(fs, at, i) && TmpPath(at) in fs.dirs
    ensures Mkdir(fs, Marker(TmpPath(at), i)).Ok?
    ensures Progress(Mkdir(fs, Marker(TmpPath(at), i)).value, at, i + 1)
  {
    var final, tmp := FinalPath(at), TmpPath(at);
    var marker := Marker(tmp, i);
    MarkerShape(tmp, i);
    var fs2 := fs.(dirs := fs.dirs + {marker});
    assert Mkdir(fs, marker) == Ok(fs2);
    forall j: nat ensures Exists(fs2, Marker(tmp, j)) <==> j < i + 1 {
      NatToStringInjective(i, j);
      assert Marker(tmp, j) == marker <==> j == i;
    }
    DirPathsApart(at);
    assert !Under(marker, final) by {
      DisjointPrefixes(tmp, final, marker);
    }
  }

  /** Renaming a working directory that holds the markers below `count` commits exactly those markers. */
  lemma RenameCommits(fs: FsState, at: Location, count: nat)
    requires Progress(fs, at, count) && TmpPath(at) in fs.dirs
    ensures Rename(fs, TmpPath(at), FinalPath(at)).Ok?
    ensures Committed(Rename(fs, TmpPath(at), FinalPath(at)).value, at, count)
  {
    var final, tmp := FinalPath(at), TmpPath(at);
    DirPathsApart(at);
    assert Under(final, final);
    assert CanRename(fs, tmp, final);
    var fs3 := Move(fs, tmp, final);
    RenameMoves(fs, tmp, final, []);
    assert tmp + [] == tmp && final + [] == final;
    RenameVacatesSource(fs, tmp, final);
    forall j: nat ensures Exists(fs3, Marker(final, j)) <==> j < count {
      RenameMoves(fs, tmp, final, [NatToString(j)]);
      assert Exists(fs, Marker(tmp, j)) <==> j < count;
    }
  }

  /** Binding the continuing variant in a `Progress(i)` state keeps the markers and creates the working directory. */
  lemma BindKeepsProgress(fs: FsState, at: Location, i: nat)
    requires Progress(fs, at, i)
    ensures var b := Bind(NewData(Continues), fs, at);
      && b.data == NewData(Continues).(loc := at, bound := true, dir := TmpPath(at))
      && !Persisted(b.data, b.fs)
      && Progress(b.fs, at, i) && TmpPath(at) in b.fs.dirs
  {
    var tmp := TmpPath(at);
    BindStartsInTmp(fs, Continues, at);
    var b := Bind(NewData(Continues), fs, at);
    assert Under(FinalPath(at), FinalPath(at));
    forall j: nat ensures Exists(b.fs, Marker(tmp, j)) <==> j < i {
      MarkerShape(tmp, j);
    }
  }

  /**
    One process of the continuing task after `i < count` checkpoints: it creates marker `i`
    and runs once; unless that was the last marker the result stays uncommitted and the value
    is the working directory, otherwise `finished()` commits it and the value is the final
    directory.
   */
  lemma CheckpointStep(fs: FsState, c: Config, t: TaskDef, i: nat)
    requires Compatible(t) && t.body.Checkpoints? && i < t.body.count
    requires Progress(fs, TaskLocation(c, t), i)
    ensures var at := TaskLocation(c, t);
      var r := Invoke(fs, c, t);
      && r.runs == 1
      && (i + 1 < t.body.count ==> Progress(r.fs, at, i + 1) && r.result == Ok(DirValue(TmpPath(at))))
      && (i + 1 == t.body.count ==> Committed(r.fs, at, t.body.count) && r.result == Ok(DirValue(FinalPath(at))))
  {
    var at := TaskLocation(c, t);
    var count := t.body.count;
    BindKeepsProgress(fs, at, i);
    var b := Bind(NewData(Continues), fs, at);
    FirstMissingIs(b.fs, TmpPath(at), 0, i, count);
    MarkerAdvances(b.fs, at, i);
    var fs2 := Mkdir(b.fs, Marker(TmpPath(at), i)).value;
    var step := CheckpointRun(b.data, b.fs, count);
    if i + 1 == count {
      RenameCommits(fs2, at, count);
      assert step.fs == Rename(fs2, TmpPath(at), FinalPath(at)).value;
    } else {
      assert step.fs == fs2;
    }
  }

  /** A committed continuing result stays committed, with the same markers, when a later process reads it. */
  lemma CommittedStaysCommitted(fs: FsState, c: Config, t: TaskDef)
    requires Compatible(t) && t.body.Checkpoints?
    requires Committed(fs, TaskLocation(c, t), t.body.count)
    ensures var i := Invoke(fs, c, t);
      && i.runs == 0 && i.result == Ok(DirValue(FinalPath(TaskLocation(c, t))))
      && Committed(i.fs, TaskLocation(c, t), t.body.count)
  {
    var at := TaskLocation(c, t);
    CommittedIsReused(fs, c, t);
    var fs1 := MakeDirs(fs, TaskDir(c, t));
    MakeDirsKeepsLonger(fs, TaskDir(c, t));
    forall q | q in fs1.dirs ensures !Under(q, TmpPath(at)) {
      MakeDirsEffect(fs, TaskDir(c, t), q);
    }
    forall j: nat ensures Exists(fs1, Marker(FinalPath(at), j)) <==> j < t.body.count {
      MarkerShape(FinalPath(at), j);
    }
  }

  /** `n` consecutive processes, each reading `value` on a new instance of the task. */
  function Processes(fs: FsState, c: Config, t: TaskDef, n: nat): FsState
    requires Compatible(t)
  {
    if n == 0 then fs else Invoke(Processes(fs, c, t, n - 1), c, t).fs
  }

  /**
    Starting with nothing at either directory, after `n < count` processes the working
    directory holds the markers below `n` and the final directory is absent; after `count`
    processes the final directory holds the `count` markers and the working directory is gone.
   */
  lemma {:induction false} CheckpointsAccumulate(fs: FsState, c: Config, t: TaskDef, n: nat)
    requires Compatible(t) && t.body.Checkpoints? && 0 < t.body.count && n <= t.body.count
    requires Vacant(fs, FinalPath(TaskLocation(c, t))) && Vacant(fs, TmpPath(TaskLocation(c, t)))
    ensures n < t.body.count ==> Progress(Processes(fs, c, t, n), TaskLocation(c, t), n)
    ensures n == t.body.count ==> Committed(Processes(fs, c, t, n), TaskLocation(c, t), n)
  {
    var at := TaskLocation(c, t);
    if n == 0 {
      forall j: nat ensures !Exists(fs, Marker(TmpPath(at), j)) {
        MarkerShape(TmpPath(at), j);
      }
    } else {
      CheckpointsAccumulate(fs, c, t, n - 1);
      CheckpointStep(Processes(fs, c, t, n - 1), c, t, n - 1);
    }
  }

  /**
    The continuing task from nothing: each of the first `count` processes runs once; all but
    the last leave the value at the working directory, the last commits and reports the final
    directory; the process after that runs 0 times and reports the final directory.
   */
  lemma ContinuingTaskLifecycle(fs: FsState, c: Config, t: TaskDef, n: nat)
    requires Compatible(t) && t.body.Checkpoints? && 0 < t.body.count && n <= t.body.count
    requires Vacant(fs, FinalPath(TaskLocation(c, t))) && Vacant(fs, TmpPath(TaskLocation(c, t)))
    ensures var at := TaskLocation(c, t);
      var r := Invoke(Processes(fs, c, t, n), c, t);
      && (n < t.body.count ==> r.runs == 1)
      && (n + 1 < t.body.count ==> r.result == Ok(DirValue(TmpPath(at))))
      && (n + 1 >= t.body.count ==> r.result == Ok(DirValue(FinalPath(at))))
      && (n == t.body.count ==> r.runs == 0 && Committed(r.fs, at, t.body.count))
  {
    CheckpointsAccumulate(fs, c, t, n);
    if n < t.body.count {
      CheckpointStep(Processes(fs, c, t, n), c, t, n);
    } else {
      CommittedStaysCommitted(Processes(fs, c, t, n), c, t);
    }
  }

  // ---------------------------------------------------------------- Data objects on their own

  /**
    A process that reuses a committed directory result and then calls `delete()` on its Data
    object leaves neither the final nor the working directory behind.
   */
  lemma DeleteAfterReuseVacates(fs: FsState, c: Config, t: TaskDef)
    requires Compatible(t) && t.dataClass.IsDir()
    requires Exists(fs, FinalPath(TaskLocation(c, t))) && Vacant(fs, TmpPath(TaskLocation(c, t)))
    ensures var at, i := TaskLocation(c, t), Invoke(fs, c, t);
      var deleted := Delete(i.data, i.fs).fs;
      Vacant(deleted, FinalPath(at)) && Vacant(deleted, TmpPath(at))
  {
    var at := TaskLocation(c, t);
    CommittedIsReused(fs, c, t);
    MakeDirsKeepsLonger(fs, TaskDir(c, t));
  }

  /**
    Deleting a committed continuing result makes the next process start over: it runs once
    and creates marker `0` in a new working directory, committing at once only when there
    is a single checkpoint.
   */
  lemma ContinuingDeleteRestarts(fs: FsState, c: Config, t: TaskDef)
    requires Compatible(t) && t.body.Checkpoints? && 0 < t.body.count
    requires Committed(fs, TaskLocation(c, t), t.body.count)
    ensures var at, i := TaskLocation(c, t), Invoke(fs, c, t);
      var next := Invoke(Delete(i.data, i.fs).fs, c, t);
      && next.runs == 1
      && (1 < t.body.count ==> Progress(next.fs, at, 1) && next.result == Ok(DirValue(TmpPath(at))))
      && (1 == t.body.count ==> Committed(next.fs, at, 1) && next.result == Ok(DirValue(FinalPath(at))))
  {
    var at, i := TaskLocation(c, t), Invoke(fs, c, t);
    DeleteAfterReuseVacates(fs, c, t);
    var deleted := Delete(i.data, i.fs).fs;
    forall j: nat ensures !Exists(deleted, Marker(TmpPath(at), j)) {
      MarkerShape(TmpPath(at), j);
    }
    assert Progress(deleted, at, 0);
    CheckpointStep(deleted, c, t, 0);
  }

  /**
    Deleting a committed directory result makes the next process run again: it recreates the
    final directory with what `run` writes into it.
   */
  lemma DirDeleteRestarts(fs: FsState, c: Config, t: TaskDef, entry: Segment)
    requires Compatible(t) && t.body == WriteIntoDir(entry)
    requires Exists(fs, FinalPath(TaskLocation(c, t))) && Vacant(fs, TmpPath(TaskLocation(c, t)))
    ensures var at, i := TaskLocation(c, t), Invoke(fs, c, t);
      var next := Invoke(Delete(i.data, i.fs).fs, c, t);
      && next.runs == 1 && next.result == Ok(DirValue(FinalPath(at)))
      && FinalPath(at) + [entry] in next.fs.dirs
  {
    var i := Invoke(fs, c, t);
    DeleteAfterReuseVacates(fs, c, t);
    DirDataCommits(Delete(i.data, i.fs).fs, c, t, entry);
  }

  /**
    Deleting a whole-file result through the object a process loaded it with removes the
    file, and the next process runs again with the same value.
   */
  lemma WholeFileDeleteRestarts(fs: FsState, c: Config, t: TaskDef, v: Json)
    requires Compatible(t) && t.dataClass == JsonFile
    requires t.body == ReturnPlain(v) || t.body == ReturnJsonData(v)
    requires FilePath(JsonFile, TaskLocation(c, t)) in fs.files
    ensures var i := Invoke(fs, c, t);
      var deleted := Delete(i.data, i.fs).fs;
      && i.runs == 0 && FilePath(JsonFile, TaskLocation(c, t)) !in deleted.files
      && Invoke(deleted, c, t).runs == 1 && Invoke(deleted, c, t).result == Ok(Plain(v))
  {
    var at := TaskLocation(c, t);
    var b := Bind(NewData(JsonFile), fs, at);
    assert Persisted(b.data, b.fs);
    var i := Invoke(fs, c, t);
    assert i.data.kind == JsonFile && i.data.loc == at;
    WholeFileResultIsReused(Delete(i.data, i.fs).fs, c, t, v);
  }

  /**
    A whole-file variant saved at a location is read back by a fresh object bound to the same
    location: the file `<name>.<ext>` exists and loading gives the saved value (a producer comes
    back as the list of its items); deleting through the first object removes the file again.
   */
  lemma WholeFileRoundTrip(fs: FsState, kind: DataKind, loc: Location, v: Payload)
    requires kind.IsFile() && Encode(kind, v).Ok?
    ensures var b := Bind(NewData(kind), fs, loc);
      var s := Save(b.data.(value := v), b.fs);
      var b2 := Bind(NewData(kind), s.fs, loc);
      && s.status == Done && FilePath(kind, loc) in s.fs.files
      && Load(b2.data, b2.fs, NativeType(kind)).result == Ok(Materialised(v))
      && FilePath(kind, loc) !in Delete(s.data, b2.fs).fs.files
  {
    var b := Bind(NewData(kind), fs, loc);
    var s := Save(b.data.(value := v), b.fs);
    MakeDirsKeepsLonger(s.fs, loc.root);
    EncodeDecode(kind, v);
  }

  /**
    A generator of `items` is saved to `<name>.jsonl`, the saving object is left with an empty
    producer, and a fresh object loads the list of the items.
   */
  lemma GeneratedRoundTrip(fs: FsState, loc: Location, items: seq<Json>)
    ensures var b := Bind(NewData(Generated), fs, loc);
      var s := Save(b.data.(value := Stream(items)), b.fs);
      var b2 := Bind(NewData(Generated), s.fs, loc);
      && loc.root + [loc.name + ".jsonl"] in s.fs.files
      && s.data.value == Stream([])
      && Accepts(Generated, GeneratorType)
      && Load(b2.data, b2.fs, GeneratorType).result == Ok(Plain(JList(items)))
  {
    WholeFileRoundTrip(fs, Generated, loc, Stream(items));
    assert loc.name + "." + "jsonl" == loc.name + ".jsonl";
  }

  /** The sidecar `<name>.run_info.yaml` is none of the paths the result itself occupies. */
  lemma SidecarApart(loc: Location)
    ensures RunInfoPath(loc) != FilePath(JsonFile, loc) && RunInfoPath(loc) != FilePath(Generated, loc)
    ensures !Under(RunInfoPath(loc), FinalPath(loc)) && !Under(FinalPath(loc), RunInfoPath(loc))
    ensures !Under(RunInfoPath(loc), TmpPath(loc)) && !Under(TmpPath(loc), RunInfoPath(loc))
  {
    var side := loc.name + ".run_info.yaml";
    assert |side| == |loc.name| + 14;
    assert |loc.name + "." + "json"| == |loc.name| + 5;
    assert |loc.name + "." + "jsonl"| == |loc.name| + 6;
    assert |loc.name + "_tmp"| == |loc.name| + 4;
    assert RunInfoPath(loc)[|loc.root|] == side;
    assert FilePath(JsonFile, loc)[|loc.root|] == loc.name + "." + "json";
    assert FilePath(Generated, loc)[|loc.root|] == loc.name + "." + "jsonl";
    SiblingsApart(loc.root, side, loc.name, RunInfoPath(loc));
    SiblingsApart(loc.root, loc.name, side, FinalPath(loc));
    SiblingsApart(loc.root, side, loc.name + "_tmp", RunInfoPath(loc));
    SiblingsApart(loc.root, loc.name + "_tmp", side, TmpPath(loc));
  }

  /** A Data object points at its working or final directory, as binding, loading and committing leave it. */
  ghost predicate WellPlaced(d: DataState) {
    d.bound && (d.kind.IsDir() ==> d.dir == TmpPath(d.loc) || d.dir == FinalPath(d.loc))
  }

  /**
    The run-info record reads back as it was written, and it is independent of the result:
    writing it changes neither `exists()` nor what `load` gives.
   */
  lemma RunInfoRoundTrip(d: DataState, fs: FsState, record: map<string, Json>, expected: PyType)
    requires d.bound
    ensures d.loc.root + [d.loc.name + ".run_info.yaml"] in SaveRunInfo(d, fs, record).files
    ensures LoadRunInfo(d, SaveRunInfo(d, fs, record)) == Ok(record)
    ensures Persisted(d, SaveRunInfo(d, fs, record)) == Persisted(d, fs)
    ensures Load(d, SaveRunInfo(d, fs, record), expected) == Load(d, fs, expected)
  {
    SidecarWriteKeepsResult(d, fs, record);
  }

  /** Writing the sidecar leaves the result file and the final directory as they were. */
  lemma SidecarWriteKeepsResult(d: DataState, fs: FsState, record: map<string, Json>)
    requires d.bound
    ensures var written := SaveRunInfo(d, fs, record);
      && (Exists(written, FinalPath(d.loc)) <==> Exists(fs, FinalPath(d.loc)))
      && (d.kind.IsFile() ==> (FilePath(d.kind, d.loc) in written.files <==> FilePath(d.kind, d.loc) in fs.files))
      && (d.kind.IsFile() && FilePath(d.kind, d.loc) in fs.files ==>
            written.files[FilePath(d.kind, d.loc)] == fs.files[FilePath(d.kind, d.loc)])
  {
    SidecarApart(d.loc);
  }

  /** Saving or deleting the result, including the commit rename, leaves the run-info record as it was. */
  lemma RunInfoSurvivesResult(d: DataState, fs: FsState)
    requires WellPlaced(d)
    ensures LoadRunInfo(Save(d, fs).data, Save(d, fs).fs) == LoadRunInfo(d, fs)
    ensures LoadRunInfo(Delete(d, fs).data, Delete(d, fs).fs) == LoadRunInfo(d, fs)
  {
    SaveKeepsSidecar(d, fs);
    DeleteKeepsSidecar(d, fs);
  }

  /** Saving, the commit rename included, leaves the sidecar file as it was. */
  lemma SaveKeepsSidecar(d: DataState, fs: FsState)
    requires WellPlaced(d)
    ensures Save(d, fs).data.loc == d.loc && Save(d, fs).data.bound
    ensures RunInfoPath(d.loc) in Save(d, fs).fs.files <==> RunInfoPath(d.loc) in fs.files
    ensures RunInfoPath(d.loc) in fs.files ==> Save(d, fs).fs.files[RunInfoPath(d.loc)] == fs.files[RunInfoPath(d.loc)]
  {
    SidecarApart(d.loc);
    DirPathsApart(d.loc);
    if d.kind == Dir && d.dir == TmpPath(d.loc) && Rename(fs, TmpPath(d.loc), FinalPath(d.loc)).Ok? {
      RenameFrame(fs, TmpPath(d.loc), FinalPath(d.loc), RunInfoPath(d.loc));
    }
  }

  /** Deleting the result leaves the sidecar file as it was. */
  lemma DeleteKeepsSidecar(d: DataState, fs: FsState)
    requires WellPlaced(d)
    ensures Delete(d, fs).data.loc == d.loc && Delete(d, fs).data.bound
    ensures RunInfoPath(d.loc) in Delete(d, fs).fs.files <==> RunInfoPath(d.loc) in fs.files
    ensures RunInfoPath(d.loc) in fs.files ==> Delete(d, fs).fs.files[RunInfoPath(d.loc)] == fs.files[RunInfoPath(d.loc)]
  {
    SidecarApart(d.loc);
    if d.kind.IsDir() {
      RemoveTreeEffect(fs, d.dir, RunInfoPath(d.loc));
    }
  }

  // ---------------------------------------------------------------- the fixtures

  /** Task `A` of the persistence tests: group `x`, result in a JSON file, `run` produces 1. */
  function FixtureA(body: RunBody): TaskDef {
    TaskDef(Some("x"), "a", JsonFile, body)
  }

  /**
    The persistence tests, for `run` returning 1 and for `run` returning a `JSONData` holding 1:
    the first instance runs once and its result is `x/a/test.json`; a new instance on the same
    config runs 0 times, one on config `test2` runs once, and all see 1.
   */
  lemma PersistenceFixture(fs: FsState, base: Path, body: RunBody)
    requires body == ReturnPlain(JInt(1)) || body == ReturnJsonData(JInt(1))
    requires base + ["x", "a", "test.json"] !in fs.files && base + ["x", "a", "test2.json"] !in fs.files
    ensures var c, c2, a := Config(base, "test"), Config(base, "test2"), FixtureA(body);
      var first := Invoke(fs, c, a);
      var second := Invoke(first.fs, c, a);
      var third := Invoke(second.fs, c2, a);
      && FilePath(JsonFile, TaskLocation(c, a)) == base + ["x", "a", "test.json"]
      && first.runs == 1 && first.result == Ok(Plain(JInt(1)))
      && base + ["x", "a", "test.json"] in first.fs.files
      && second.runs == 0 && second.result == Ok(Plain(JInt(1)))
      && third.runs == 1 && third.result == Ok(Plain(JInt(1)))
  {
    var c, c2, a := Config(base, "test"), Config(base, "test2"), FixtureA(body);
    assert "test" + "." + "json" == "test.json";
    assert "test2" + "." + "json" == "test2.json";
    assert TaskDir(c, a) == base + ["x", "a"];
    assert FilePath(JsonFile, TaskLocation(c, a)) == base + ["x", "a"] + ["test.json"] == base + ["x", "a", "test.json"];
    assert FilePath(JsonFile, TaskLocation(c2, a)) == base + ["x", "a"] + ["test2.json"] == base + ["x", "a", "test2.json"];
    WholeFileResultIsReused(fs, c, a, JInt(1));
    var first := Invoke(fs, c, a);
    ResultFilesApart(c, c2, a);
    assert first.fs.files == fs.files[base + ["x", "a", "test.json"] := JInt(1)];
    ConfigNamesIsolate(first.fs, c, c2, a, JInt(1));
  }

  /**
    The in-memory tests: task `A` (group `x`, in-memory variant) and task `B` (no group, `run`
    returns an in-memory object) run once in every process; `x/a` exists after `A` ran, and
    `B` creates nothing under `x/b`.
   */
  lemma InMemoryFixture(fs: FsState, base: Path)
    requires Vacant(fs, base + ["x", "b"])
    ensures var c := Config(base, "test");
      var a := TaskDef(Some("x"), "a", InMemory, ReturnPlain(JInt(1)));
      var b := TaskDef(None, "b", InMemory, ReturnInMemoryData(JInt(1)));
      var ia := Invoke(fs, c, a);
      var ib := Invoke(fs, c, b);
      && ia.runs == 1 && ia.result == Ok(Plain(JInt(1))) && base + ["x", "a"] in ia.fs.dirs
      && Invoke(ia.fs, c, a).runs == 1
      && ib.runs == 1 && ib.result == Ok(Plain(JInt(1))) && Vacant(ib.fs, base + ["x", "b"])
      && Invoke(ib.fs, c, b).runs == 1
  {
    var c := Config(base, "test");
    var a := TaskDef(Some("x"), "a", InMemory, ReturnPlain(JInt(1)));
    var b := TaskDef(None, "b", InMemory, ReturnInMemoryData(JInt(1)));
    assert TaskDir(c, a) == base + ["x", "a"];
    InMemoryAlwaysRuns(fs, c, a, JInt(1));
    InMemoryAlwaysRuns(Invoke(fs, c, a).fs, c, a, JInt(1));
    InMemoryAlwaysRuns(fs, c, b, JInt(1));
    InMemoryAlwaysRuns(Invoke(fs, c, b).fs, c, b, JInt(1));
    var ib := Invoke(fs, c, b);
    forall q | q in ib.fs.dirs ensures !Under(q, base + ["x", "b"]) {
      MakeDirsEffect(fs, base + ["b"], q);
      if q !in fs.dirs {
        assert |q| <= |base| + 1;
      }
    }
  }

  /**
    The directory test: task `C` (no group) works in `c/test_tmp`, `c/test` is absent until
    `value` returns and then holds the entry `c` that `run` created; a second instance runs
    0 times, and deleting through it removes `c/test/c`.
   */
  lemma DirFixture(fs: FsState, base: Path)
    requires Vacant(fs, base + ["c", "test"]) && Vacant(fs, base + ["c", "test_tmp"])
    ensures var c, t := Config(base, "test"), TaskDef(None, "c", Dir, WriteIntoDir("c"));
      var first := Invoke(fs, c, t);
      var second := Invoke(first.fs, c, t);
      && Bind(NewData(Dir), fs, TaskLocation(c, t)).data.dir == base + ["c", "test_tmp"]
      && first.runs == 1 && first.result == Ok(DirValue(base + ["c", "test"]))
      && base + ["c", "test", "c"] in first.fs.dirs
      && second.runs == 0 && second.result == first.result
      && !Exists(Delete(second.data, second.fs).fs, base + ["c", "test", "c"])
  {
    var c, t := Config(base, "test"), TaskDef(None, "c", Dir, WriteIntoDir("c"));
    var at := TaskLocation(c, t);
    assert FinalPath(at) == base + ["c"] + ["test"] == base + ["c", "test"];
    assert "test" + "_tmp" == "test_tmp";
    assert TmpPath(at) == base + ["c"] + ["test_tmp"] == base + ["c", "test_tmp"];
    assert FinalPath(at) + ["c"] == base + ["c", "test", "c"];
    assert Under(FinalPath(at) + ["c"], FinalPath(at));
    DirDataCommits(fs, c, t, "c");
    DirDataLifecycle(fs, c, t, "c");
  }

  /** Task `D` of the continuing test: no group, four checkpoints. */
  function FixtureD(): TaskDef {
    TaskDef(None, "d", Continues, Checkpoints(4))
  }

  /** Where `D` keeps its result under config `test`: `d/test_tmp` while working, `d/test` once committed. */
  lemma FixtureDPaths(base: Path)
    ensures TmpPath(TaskLocation(Config(base, "test"), FixtureD())) == base + ["d", "test_tmp"]
    ensures FinalPath(TaskLocation(Config(base, "test"), FixtureD())) == base + ["d", "test"]
    ensures NatToString(0) == "0" && NatToString(1) == "1" && NatToString(2) == "2"
    ensures NatToString(3) == "3" && NatToString(4) == "4"
  {
    assert "test" + "_tmp" == "test_tmp";
  }

  /**
    The continuing test, processes one to three: each runs once and reports `d/test_tmp`;
    after process `k` the markers `0` .. `k-1` exist there, marker `k` does not, and `d/test`
    is absent.
   */
  lemma ContinuesFixtureWorking(fs: FsState, base: Path, k: nat)
    requires Vacant(fs, base + ["d", "test"]) && Vacant(fs, base + ["d", "test_tmp"])
    requires 1 <= k <= 3
    ensures var c, t := Config(base, "test"), FixtureD();
      var tmp := base + ["d", "test_tmp"];
      var before, after := Processes(fs, c, t, k - 1), Processes(fs, c, t, k);
      && Invoke(before, c, t).runs == 1 && Invoke(before, c, t).result == Ok(DirValue(tmp))
      && tmp in after.dirs && !Exists(after, base + ["d", "test"])
      && (forall j: nat :: j < k ==> Exists(after, tmp + [NatToString(j)]))
      && !Exists(after, tmp + [NatToString(k)])
  {
    var c, t := Config(base, "test"), FixtureD();
    var at := TaskLocation(c, t);
    var tmp := base + ["d", "test_tmp"];
    FixtureDPaths(base);
    var after := Processes(fs, c, t, k);
    CheckpointsAccumulate(fs, c, t, k);
    assert Progress(after, at, k);
    assert Under(FinalPath(at), FinalPath(at));
    forall j: nat | j < k ensures Exists(after, tmp + [NatToString(j)]) {
      assert Marker(TmpPath(at), j) == tmp + [NatToString(j)];
    }
    assert Marker(TmpPath(at), k) == tmp + [NatToString(k)];
    ContinuingTaskLifecycle(fs, c, t, k - 1);
  }

  /**
    The continuing test, process four: it runs once and commits, so `d/test` holds `0` .. `3`
    but not `4`, `d/test_tmp` is gone, and the value is `d/test`.
   */
  lemma ContinuesFixtureCommitted(fs: FsState, base: Path)
    requires Vacant(fs, base + ["d", "test"]) && Vacant(fs, base + ["d", "test_tmp"])
    ensures var c, t := Config(base, "test"), FixtureD();
      var final := base + ["d", "test"];
      var p3, p4 := Processes(fs, c, t, 3), Processes(fs, c, t, 4);
      && Invoke(p3, c, t).runs == 1 && Invoke(p3, c, t).result == Ok(DirValue(final))
      && final in p4.dirs && !Exists(p4, base + ["d", "test_tmp"])
      && Exists(p4, final + ["3"]) && !Exists(p4, final + ["4"])
  {
    var c, t := Config(base, "test"), FixtureD();
    var at := TaskLocation(c, t);
    FixtureDPaths(base);
    assert Under(base + ["d", "test_tmp"], base + ["d", "test_tmp"]);
    assert Marker(FinalPath(at), 3) == base + ["d", "test"] + ["3"];
    assert Marker(FinalPath(at), 4) == base + ["d", "test"] + ["4"];
    ContinuingTaskLifecycle(fs, c, t, 3);
    CheckpointsAccumulate(fs, c, t, 4);
  }

  /**
    The continuing test, process five, from any committed state of `D`: it runs 0 times,
    reports `d/test`, and `d/test/3` exists while `d/test/4` does not.
   */
  lemma ContinuesFixtureReused(fs: FsState, base: Path)
    requires Committed(fs, TaskLocation(Config(base, "test"), FixtureD()), 4)
    ensures var c, t, final := Config(base, "test"), FixtureD(), base + ["d", "test"];
      && Invoke(fs, c, t).runs == 0 && Invoke(fs, c, t).result == Ok(DirValue(final))
      && Exists(Invoke(fs, c, t).fs, final + ["3"]) && !Exists(Invoke(fs, c, t).fs, final + ["4"])
  {
    var c, t := Config(base, "test"), FixtureD();
    var at := TaskLocation(c, t);
    FixtureDPaths(base);
    assert Marker(FinalPath(at), 3) == base + ["d", "test"] + ["3"];
    assert Marker(FinalPath(at), 4) == base + ["d", "test"] + ["4"];
    CommittedStaysCommitted(fs, c, t);
  }

  /**
    Result paths do not keep every pair of configs apart: the working directory of config
    `<n>` is the final directory of config `<n>_tmp`. After one unfinished process of a
    continuing task under `<n>`, a process under `<n>_tmp` runs 0 times and reports the other
    config's unfinished working directory as its committed result.
   */
  lemma TmpNamedConfigAdoptsUnfinishedWork(fs: FsState, base: Path, n: string, t: TaskDef)
    requires Compatible(t) && t.body.Checkpoints? && 2 <= t.body.count
    requires Vacant(fs, FinalPath(TaskLocation(Config(base, n), t))) && Vacant(fs, TmpPath(TaskLocation(Config(base, n), t)))
    ensures var other := Config(base, n + "_tmp");
      var working := TmpPath(TaskLocation(Config(base, n), t));
      && working == FinalPath(TaskLocation(other, t))
      && var p1 := Invoke(fs, Config(base, n), t).fs;
         Invoke(p1, other, t).runs == 0 && Invoke(p1, other, t).result == Ok(DirValue(working))
  {
    var c, other := Config(base, n), Config(base, n + "_tmp");
    CheckpointsAccumulate(fs, c, t, 1);
    assert Processes(fs, c, t, 1) == Invoke(fs, c, t).fs;
    CommittedIsReused(Invoke(fs, c, t).fs, other, t);
  }
}

=== FILE: scenarios.dfy ===
/**
  The persistence, directory and continuing tests replayed on `Task` instances sharing one
  `FileStore`: each new instance stands for a new process.
 */
module Scenarios {
  import opened Paths
  import opened JsonValues
  import opened Outcomes
  import opened FileSystem
  import opened DataSpec
  import opened Store
  import opened TaskSpec
  import opened Tasks
  import opened TaskProperties

  /** A new process: a fresh instance of `t` reads `value` once. */
  method NewProcess(store: FileStore, config: Config, t: TaskDef) returns (task: Task, r: Result<Payload>)
    requires Compatible(t)
    modifies store
    ensures fresh(task) && task.store == store && task.config == config && task.definition == t && task.Valid()
    ensures var inv := Invoke(old(store.State()), config, t);
      store.State() == inv.fs && r == inv.result && task.runCalled == inv.runs
    ensures r.Ok? ==> task.cached == Some(r.value) && task.data != null && fresh(task.data) && task.data.State() == Invoke(old(store.State()), config, t).data
  {
    task := new Task(config, t, store);
    r := task.Value();
  }

  /**
    `test_persistence` and `test_object_persistence`: the values read on `a`, `a` again, `a2`
    (same config) and `a3` (config `test2`), and `run_called` after each read.
   */
  method PersistenceScenario(store: FileStore, base: Path, body: RunBody)
      returns (values: seq<Result<Payload>>, runs: seq<nat>)
    requires body == ReturnPlain(JInt(1)) || body == ReturnJsonData(JInt(1))
    requires base + ["x", "a", "test.json"] !in store.files && base + ["x", "a", "test2.json"] !in store.files
    modifies store
    ensures values == [Ok(Plain(JInt(1))), Ok(Plain(JInt(1))), Ok(Plain(JInt(1))), Ok(Plain(JInt(1)))]
    ensures runs == [1, 1, 0, 1]
  {
    PersistenceFixture(store.State(), base, body);
    var config := Config(base, "test");
    var a, v1 := NewProcess(store, config, FixtureA(body));
    ghost var afterFirst := store.State();
    var r1 := a.runCalled;
    var v2 := a.Value();
    assert store.State() == afterFirst;
    var a2, v3 := NewProcess(store, config, FixtureA(body));
    var a3, v4 := NewProcess(store, Config(base, "test2"), FixtureA(body));
    values, runs := [v1, v2, v3, v4], [r1, a.runCalled, a2.runCalled, a3.runCalled];
  }

  /**
    `test_dir_data`: `c` runs once and its value is `c/test`, which holds `c`; `c2` runs 0 times;
    deleting `c2`'s Data object removes `c/test/c`.
   */
  method DirScenario(store: FileStore, base: Path)
      returns (value: Result<Payload>, runs: nat, runsAgain: nat)
    requires Vacant(store.State(), base + ["c", "test"]) && Vacant(store.State(), base + ["c", "test_tmp"])
    modifies store
    ensures value == Ok(DirValue(base + ["c", "test"])) && runs == 1 && runsAgain == 0
    ensures !Exists(store.State(), base + ["c", "test", "c"])
  {
    DirFixture(store.State(), base);
    var config := Config(base, "test");
    var c;
    c, value := NewProcess(store, config, TaskDef(None, "c", Dir, WriteIntoDir("c")));
    runs := c.runCalled;
    var c2, again := NewProcess(store, config, TaskDef(None, "c", Dir, WriteIntoDir("c")));
    runsAgain := c2.runCalled;
    c2.data.Delete();
  }

  /**
    A new instance of `D` after `i < 4` checkpoints: it runs once and adds marker `i`; the
    first three report `d/test_tmp`, the fourth commits and reports `d/test`.
   */
  method CheckpointProcess(store: FileStore, base: Path, ghost i: nat) returns (d: Task, r: Result<Payload>)
    requires i < 4 && Progress(store.State(), TaskLocation(Config(base, "test"), FixtureD()), i)
    modifies store
    ensures fresh(d) && d.runCalled == 1
    ensures i < 3 ==> Progress(store.State(), TaskLocation(Config(base, "test"), FixtureD()), i + 1)
    ensures i < 3 ==> r == Ok(DirValue(base + ["d", "test_tmp"]))
    ensures i == 3 ==> Committed(store.State(), TaskLocation(Config(base, "test"), FixtureD()), 4)
    ensures i == 3 ==> r == Ok(DirValue(base + ["d", "test"]))
  {
    FixtureDPaths(base);
    CheckpointStep(store.State(), Config(base, "test"), FixtureD(), i);
    d, r := NewProcess(store, Config(base, "test"), FixtureD());
  }

  /** A new instance of `D` once its result is committed: it runs 0 times and reports `d/test`. */
  method CommittedProcess(store: FileStore, base: Path) returns (d: Task, r: Result<Payload>)
    requires Committed(store.State(), TaskLocation(Config(base, "test"), FixtureD()), 4)
    modifies store
    ensures fresh(d) && d.runCalled == 0 && r == Ok(DirValue(base + ["d", "test"]))
    ensures Exists(store.State(), base + ["d", "test", "3"]) && !Exists(store.State(), base + ["d", "test", "4"])
  {
    ContinuesFixtureReused(store.State(), base);
    assert base + ["d", "test"] + ["3"] == base + ["d", "test", "3"];
    assert base + ["d", "test"] + ["4"] == base + ["d", "test", "4"];
    d, r := NewProcess(store, Config(base, "test"), FixtureD());
  }

  /**
    `test_continues_data`: the instances `d`, `d2`, an unnamed one, `d3` and `d4` of `D` read
    `value` one after another; `run_called` is 1 for the first four and 0 for the fifth, the
    first three report `d/test_tmp` and the last two `d/test`, which then holds marker `3` but
    not `4`.
   */
  method ContinuesScenario(store: FileStore, base: Path)
      returns (values: seq<Result<Payload>>, runs: seq<nat>)
    requires Vacant(store.State(), base + ["d", "test"]) && Vacant(store.State(), base + ["d", "test_tmp"])
    modifies store
    ensures runs == [1, 1, 1, 1, 0]
    ensures values == [Ok(DirValue(base + ["d", "test_tmp"])), Ok(DirValue(base + ["d", "test_tmp"])),
      Ok(DirValue(base + ["d", "test_tmp"])), Ok(DirValue(base + ["d", "test"])), Ok(DirValue(base + ["d", "test"]))]
    ensures Exists(store.State(), base + ["d", "test", "3"]) && !Exists(store.State(), base + ["d", "test", "4"])
  {
    ghost var at := TaskLocation(Config(base, "test"), FixtureD());
    FixtureDPaths(base);
    forall j: nat ensures !Exists(store.State(), Marker(TmpPath(at), j)) {
      MarkerShape(TmpPath(at), j);
    }
    var d, v1 := CheckpointProcess(store, base, 0);
    var d2, v2 := CheckpointProcess(store, base, 1);
    var unnamed, v3 := CheckpointProcess(store, base, 2);
    var d3, v4 := CheckpointProcess(store, base, 3);
    var d4, v5 := CommittedProcess(store, base);
    values, runs := [v1, v2, v3, v4, v5], [d.runCalled, d2.runCalled, unnamed.runCalled, d3.runCalled, d4.runCalled];
  }
}

=== FILE: tasks.dfy ===
/**
  A task instance: the memoisation unit. Reading `value` runs the task's computation at most
  once per instance; a new instance (a new process) shares the file store but not the cache.
 */
module Tasks {
  import opened Paths
  import opened JsonValues
  import opened Outcomes
  import FileSystem
  import opened DataSpec
  import opened Store
  import opened DataObjects
  import opened TaskSpec

  /** What the imperative `run` hands back, or the error it raised. */
  datatype RunResult = ReturnedValue(v: Payload) | ReturnedObject(obj: Data) | Raised(error: Error)

  class Task {
    const config: Config
    const definition: TaskDef
    const store: FileStore
    var runCalled: nat
    var cached: Option<Payload>
    var data: Data?

    ghost predicate Valid()
      reads this, data
    {
      && Compatible(definition)
      && (data == null <==> cached.None?)
      && (data != null ==> data.store == store && data.bound)
    }

    /** A new instance: nothing cached, `run_called` is 0. */
    constructor (config: Config, definition: TaskDef, store: FileStore)
      requires Compatible(definition)
      ensures Valid()
      ensures this.config == config && this.definition == definition && this.store == store
      ensures runCalled == 0 && cached == None && data == null
    {
      this.config := config;
      this.definition := definition;
      this.store := store;
      runCalled := 0;
      cached := None;
      data := null;
    }

    /**
      The `value` property: the cached value when there is one; otherwise the persisted result
      when it is complete, loaded without running; otherwise the result of `run`, saved.
     */
    method Value() returns (r: Result<Payload>)
      requires Valid()
      modifies this, store
      ensures Valid()
      ensures old(cached).Some? ==>
        && r == Ok(old(cached).value) && cached == old(cached) && data == old(data)
        && runCalled == old(runCalled) && store.State() == old(store.State())
      ensures old(cached).None? ==>
        var inv := Invoke(old(store.State()), config, definition);
        && store.State() == inv.fs && runCalled == old(runCalled) + inv.runs && r == inv.result
        && (r.Ok? ==> cached == Some(r.value) && data != null && fresh(data) && data.State() == inv.data)
        && (r.Err? ==> cached == None && data == null)
    {
      if cached.Some? {
        return Ok(cached.value);
      }
      var at := TaskLocation(config, definition);
      var d := new Data(definition.dataClass, store);
      d.InitPersistence(at);
      var persisted := d.Exists();
      if persisted {
        r := d.Load(NativeType(definition.dataClass));
        if r.Ok? {
          cached, data := Some(r.value), d;
        }
        return;
      }
      r := RunAndSave(d, at);
    }

    /** Runs the computation on the task's bound Data object `d` and saves what it returns. */
    method RunAndSave(d: Data, at: Location) returns (r: Result<Payload>)
      requires Compatible(definition) && cached.None? && data == null
      requires d.bound && d.store == store && d.kind == definition.dataClass
      modifies this, d, store
      ensures Valid()
      ensures var inv := Complete(TaskSpec.Run(definition.body, old(d.State()), old(store.State())), old(d.State()), at);
        && store.State() == inv.fs && runCalled == old(runCalled) + inv.runs && r == inv.result
        && (r.Ok? ==> cached == Some(r.value) && data != null && (data == d || fresh(data)) && data.State() == inv.data)
        && (r.Err? ==> cached == None && data == null)
    {
      var result := Run(d);
      match result
      case Raised(e) =>
        r := Err(e);
      case ReturnedValue(v) =>
        d.SetValue(v);
        r := Adopt(d);
      case ReturnedObject(obj) =>
        if !obj.bound {
          obj.InitPersistence(at);
        }
        r := Adopt(obj);
    }

    /** Saves the Data object `run` produced and, when that succeeds, caches its value. */
    method Adopt(obj: Data) returns (r: Result<Payload>)
      requires Compatible(definition) && cached.None? && data == null
      requires obj.bound && obj.store == store
      modifies this, obj, store
      ensures runCalled == old(runCalled)
      ensures var inv := Persist(old(obj.State()), old(store.State()), 0);
        && store.State() == inv.fs && r == inv.result && obj.State() == inv.data
        && (r.Ok? ==> cached == Some(r.value) && data == obj)
        && (r.Err? ==> cached == None && data == null)
      ensures Valid()
    {
      var st := obj.Save();
      if st.Done? {
        r := Ok(obj.Value());
        cached, data := Some(r.value), obj;
      } else {
        r := Err(st.error);
      }
    }

    /** The fixture's `run`, given the task's own bound Data object (`get_data_object()`). */
    method Run(d: Data) returns (result: RunResult)
      requires d.bound && d.store == store
      requires definition.body.Checkpoints? ==> d.kind == Continues
      modifies this`runCalled, d, store
      ensures var step := TaskSpec.Run(definition.body, old(d.State()), old(store.State()));
        && store.State() == step.fs && runCalled == old(runCalled) + step.runs
        && (result.Raised? <==> step.result.Err?)
        && (result.Raised? ==> result.error == step.result.error)
        && (result.ReturnedValue? <==> step.result.Ok? && step.result.value.Returned?)
        && (result.ReturnedValue? ==> result.v == step.result.value.v && d.State() == old(d.State()))
        && (result.ReturnedObject? <==> step.result.Ok? && step.result.value.ReturnedData?)
        && (result.ReturnedObject? ==>
              && result.obj.State() == step.result.value.data && result.obj.store == store
              && (result.obj == d || fresh(result.obj)))
    {
      match definition.body
      case ReturnPlain(v) =>
        runCalled := runCalled + 1;
        result := ReturnedValue(Plain(v));
      case ReturnJsonData(v) =>
        runCalled := runCalled + 1;
        var made := new Data(JsonFile, store);
        made.SetValue(Plain(v));
        result := ReturnedObject(made);
      case ReturnInMemoryData(v) =>
        runCalled := runCalled + 1;
        var made := new Data(InMemory, store);
        made.SetValue(Plain(v));
        result := ReturnedObject(made);
      case WriteIntoDir(entry) =>
        runCalled := runCalled + 1;
        var ok := store.Mkdir(d.dir + [entry]);
        if ok {
          result := ReturnedObject(d);
        } else {
          result := Raised(IOFailure);
        }
      case Checkpoints(count) =>
        result := RunCheckpoints(d, count);
    }

    /** `for i in range(count)`: create the first missing marker, finish at the last one, and stop. */
    method RunCheckpoints(d: Data, count: nat) returns (result: RunResult)
      requires d.bound && d.store == store && d.kind == Continues
      modifies this`runCalled, d, store
      ensures var step := CheckpointRun(old(d.State()), old(store.State()), count);
        && store.State() == step.fs && runCalled == old(runCalled) + step.runs
        && (result.Raised? <==> step.result.Err?)
        && (result.Raised? ==> result.error == step.result.error)
        && !result.ReturnedValue?
        && (result.ReturnedObject? ==> result.obj == d && d.State() == step.result.value.data)
    {
      ghost var fs0 := store.State();
      var i := 0;
      while i < count
        invariant 0 <= i <= count
        invariant store.State() == fs0 && runCalled == old(runCalled) && d.State() == old(d.State())
        invariant FirstMissing(fs0, d.dir, 0, count) == FirstMissing(fs0, d.dir, i, count)
      {
        var marker := d.dir + [NatToString(i)];
        var present := store.Exists(marker);
        if !present {
          var ok := store.Mkdir(marker);
          if !ok {
            return Raised(IOFailure);
          }
          runCalled := runCalled + 1;
          if i == count - 1 {
            var st := d.Finished();
            if st.Failed? {
              return Raised(st.error);
            }
          }
          break;
        }
        i := i + 1;
      }
      result := ReturnedObject(d);
    }
  }
}

=== FILE: taskspec.dfy ===
/**
  Tasks as values: the run context (`Config`), a task's declaration (group, name, Data
  variant and the body of its `run`), where its result lives, and what one process does
  when it reads `value` on a brand-new task instance.
 */
module TaskSpec {
  import opened Paths
  import opened JsonValues
  import opened Outcomes
  import opened FileSystem
  import opened DataSpec

  /** A run context: the storage root and the run's name. */
  datatype Config = Config(base: Path, name: string)

  /**
    The `run` bodies of the fixture tasks.
    `ReturnPlain`: returns a plain value (`return 1`).
    `ReturnJsonData`: builds a `JSONData`, sets its value and returns it.
    `ReturnInMemoryData`: returns an in-memory Data object holding the value.
    `WriteIntoDir`: takes the task's own Data object, creates `entry` inside its directory and returns it.
    `Checkpoints`: takes the task's own Data object and, for `i` in `0 .. count-1`, creates the
      first marker directory `str(i)` that is missing, calling `finished()` when it is the last one.
   */
  datatype RunBody =
    | ReturnPlain(v: Json)
    | ReturnJsonData(v: Json)
    | ReturnInMemoryData(v: Json)
    | WriteIntoDir(entry: Segment)
    | Checkpoints(count: nat)

  /**
    A task type: its group (absent when none is declared), its name, the Data variant its
    results use (the declared data class, or the one its `run` is annotated to return) and its `run`.
   */
  datatype TaskDef = TaskDef(group: Option<Segment>, name: Segment, dataClass: DataKind, body: RunBody)

  /** The Data variant fits what `run` does with it. */
  predicate Compatible(t: TaskDef) {
    match t.body
    case ReturnPlain(_) => t.dataClass == JsonFile || t.dataClass == InMemory || t.dataClass == Generated
    case ReturnJsonData(_) => t.dataClass == JsonFile
    case ReturnInMemoryData(_) => t.dataClass == InMemory
    case WriteIntoDir(_) => t.dataClass == Dir
    case Checkpoints(_) => t.dataClass == Continues
  }

  /** `<base>/<group>/<name>`, or `<base>/<name>` when the task declares no group. */
  function TaskDir(c: Config, t: TaskDef): (r: Path)
    ensures Under(r, c.base) && |r| == |c.base| + (if t.group.Some? then 2 else 1)
    ensures t.group.Some? ==> r[|c.base|] == t.group.value
    ensures r[|r| - 1] == t.name
  {
    c.base + (match t.group case None => [] case Some(g) => [g]) + [t.name]
  }

  /**
    A task's results live in its directory under the config's name; TaskLocationInjective
    shows that the location determines the config.
   */
  function TaskLocation(c: Config, t: TaskDef): (r: Location)
    ensures r.root == TaskDir(c, t) && r.name == c.name
  {
    Location(TaskDir(c, t), c.name)
  }

  /** Two configs give a task the same location exactly when they are the same config. */
  lemma TaskLocationInjective(c1: Config, c2: Config, t: TaskDef)
    ensures TaskLocation(c1, t) == TaskLocation(c2, t) <==> c1 == c2
  {
    if TaskLocation(c1, t) == TaskLocation(c2, t) {
      assert |c1.base| == |c2.base|;
      assert c1.base == TaskDir(c1, t)[..|c1.base|] == c2.base;
    }
  }

  /** The checkpoint marker `str(i)` inside `dir`. */
  function Marker(dir: Path, i: nat): Path {
    dir + [NatToString(i)]
  }

  /** The first of the markers `i .. count-1` missing from `dir`, if any. */
  function FirstMissing(fs: FsState, dir: Path, i: nat, count: nat): (r: Option<nat>)
    ensures r.Some? ==> i <= r.value < count && !Exists(fs, Marker(dir, r.value))
    ensures r.Some? ==> forall j :: i <= j < r.value ==> Exists(fs, Marker(dir, j))
    ensures r.None? ==> forall j :: i <= j < count ==> Exists(fs, Marker(dir, j))
    decreases count - i
  {
    if count <= i then None
    else if !Exists(fs, Marker(dir, i)) then Some(i)
    else FirstMissing(fs, dir, i + 1, count)
  }

  /** What `run` hands back: a plain value, or a Data object. */
  datatype RunReturn = Returned(v: Payload) | ReturnedData(data: DataState)

  /** The outcome of one `run`: the store afterwards, what it returned or raised, and how much `run_called` grew. */
  datatype RunStep = RunStep(fs: FsState, result: Result<RunReturn>, runs: nat)

  /** The `run` of the continuing task, given its bound Data object. */
  function CheckpointRun(d: DataState, fs: FsState, count: nat): (r: RunStep)
    requires d.bound && d.kind == Continues
    ensures r.runs <= 1
    ensures var m := FirstMissing(fs, d.dir, 0, count);
      && (r.runs == 1 <==> m.Some? && Mkdir(fs, Marker(d.dir, m.value)).Ok?)
      && (r.runs == 0 ==> r.fs == fs)
      && (r.runs == 1 && m.value + 1 < count ==> r.fs == Mkdir(fs, Marker(d.dir, m.value)).value)
  {
    match FirstMissing(fs, d.dir, 0, count)
    case None => RunStep(fs, Ok(ReturnedData(d)), 0)
    case Some(i) =>
      match Mkdir(fs, Marker(d.dir, i))
      case Err(e) => RunStep(fs, Err(e), 0)
      case Ok(fs1) =>
        if i == count - 1 then
          var c := Finished(d, fs1);
          if c.status.Failed? then RunStep(c.fs, Err(c.status.error), 1)
          else RunStep(c.fs, Ok(ReturnedData(c.data)), 1)
        else RunStep(fs1, Ok(ReturnedData(d)), 1)
  }

  /** One execution of `run`, given the task's own bound Data object `d`. */
  function Run(body: RunBody, d: DataState, fs: FsState): (r: RunStep)
    requires d.bound && (body.Checkpoints? ==> d.kind == Continues)
    ensures r.runs <= 1
  {
    match body
    case ReturnPlain(v) => RunStep(fs, Ok(Returned(Plain(v))), 1)
    case ReturnJsonData(v) => RunStep(fs, Ok(ReturnedData(NewData(JsonFile).(value := Plain(v)))), 1)
    case ReturnInMemoryData(v) => RunStep(fs, Ok(ReturnedData(NewData(InMemory).(value := Plain(v)))), 1)
    case WriteIntoDir(entry) =>
      (match Mkdir(fs, d.dir + [entry])
       case Ok(fs1) => RunStep(fs1, Ok(ReturnedData(d)), 1)
       case Err(e) => RunStep(fs, Err(e), 1))
    case Checkpoints(count) => CheckpointRun(d, fs, count)
  }

  /** What reading `value` on a new instance leaves behind: the store, the adopted Data object, the result and the runs. */
  datatype Invocation = Invocation(fs: FsState, data: DataState, result: Result<Payload>, runs: nat)

  /** The result's Data object is saved and its value becomes the task's value. */
  function Persist(d: DataState, fs: FsState, runs: nat): (r: Invocation)
    requires d.bound
    ensures r.runs == runs && r.data.bound
    ensures r.result.Ok? ==> r.result.value == Current(r.data)
  {
    var s := Save(d, fs);
    Invocation(s.fs, s.data, if s.status.Done? then Ok(Current(s.data)) else Err(s.status.error), runs)
  }

  /**
    Reading `value` on a new task instance (a new process): the task's Data object is bound to
    the task's location; a complete persisted result is loaded without running; otherwise `run`
    executes and its result (wrapped in the task's variant when plain, adopted as it is when
    it is a Data object) is saved.
   */
  function Invoke(fs: FsState, c: Config, t: TaskDef): (r: Invocation)
    requires Compatible(t)
    ensures r.runs <= 1 && r.data.bound
    ensures r.result.Ok? ==> r.result.value == Current(r.data)
  {
    var at := TaskLocation(c, t);
    var b := Bind(NewData(t.dataClass), fs, at);
    if Persisted(b.data, b.fs) then
      var l := Load(b.data, b.fs, NativeType(t.dataClass));
      Invocation(b.fs, l.data, l.result, 0)
    else
      Complete(Run(t.body, b.data, b.fs), b.data, at)
  }

  /**
    What follows a `run` of the task whose bound Data object is `d`: a plain result is set on
    `d`, a returned Data object is adopted (bound to `at` first when it is not yet bound); either
    is then saved. A raised error propagates and nothing is saved.
   */
  function Complete(rs: RunStep, d: DataState, at: Location): (r: Invocation)
    requires d.bound
    ensures r.runs == rs.runs && r.data.bound
    ensures rs.result.Err? ==> r.result == Err(rs.result.error) && r.fs == rs.fs
    ensures r.result.Ok? ==> r.result.value == Current(r.data)
  {
    match rs.result
    case Err(e) => Invocation(rs.fs, d, Err(e), rs.runs)
    case Ok(Returned(v)) => Persist(d.(value := v), rs.fs, rs.runs)
    case Ok(ReturnedData(rd)) =>
      var adopted := if rd.bound then DataStep(rd, rs.fs, Done) else Bind(rd, rs.fs, at);
      Persist(adopted.data, adopted.fs, rs.runs)
  }
}

=== FILE: values.dfy ===
/** The error conditions the persistence layer surfaces to its callers, and a result type carrying them. */
module Outcomes {

  datatype Error =
    | NotFound      // nothing is persisted where a load looked
    | TypeMismatch  // the requested or stored shape is not one the variant (de)serialises
    | IOFailure     // a file-store operation failed (mkdir on an existing path, a rename that cannot happen)

  datatype Result<+T> = Ok(value: T) | Err(error: Error)

  datatype Option<+T> = None | Some(value: T)

  /** Success or failure of an operation that produces no value. */
  datatype Status = Done | Failed(error: Error)
}

/** JSON-like values: what a whole-file artifact or a run-info record holds. */
module JsonValues {

  datatype Json =
    | JNull
    | JBool(b: bool)
    | JInt(i: int)
    | JStr(s: string)
    | JList(items: seq<Json>)
    | JObj(fields: map<string, Json>)
}
